=== FILE: README.md ===
# tf-vault resources in Dafny

This project models the core of `tf-vault`, a pair of Terraform providers for HashiCorp Vault. It covers three resources.

- **`vault_init`** (`terraform-provider-vaultinit`). Its Create first polls the first instance for its init status until the response timeout fires. It then sends one Init request with the share count, threshold and PGP keys, records the root token, and writes the unseal keys to a file, one per line. Next it walks every instance in order, asking each for its seal status and feeding a sealed one the keys in order until it reports unsealed. Finally it sets a fresh id and, when asked, waits (a probe every 10 s, for at most 10 minutes) until a given address answers its seal status. Its Delete only forgets the id.
- **`vault_secret`** (`terraform-provider-vaultx`). A generic secret at a logical path. Create, which is also Update, writes the data with an optional `ttl` entry and merges the write's response over it. Exists and Read read the path back; Read moves the `ttl` entry out of the data. Delete removes the secret unless deletes are ignored. `isSecretNotFoundError` recognises "bad token" errors.
- **`vault_secret_backend`** (`terraform-provider-vaultx`). Create mounts a secret backend at its path, or at its type when the path is empty, and applies an optional postgresql block. Read finds the backend in the mount listing and reads its lease TTLs. Update tunes the TTLs, remounts on a path change and re-applies a changed postgresql block. Delete unmounts the backend.

Each resource is modelled twice:

- **As functions on values.** These are `InitModel`, `SecretModel` and `BackendModel`.
  - The outside world is a value: a `World` for `vault_init` and a `Store` for the vaultx resources. It holds the nodes, or the secrets and mounts, plus a log of every call made.
  - Each remote call is one `...Step` function.
  - Whatever the world's state does not decide comes from an `Oracle`. This covers transport errors (keyed by the log position of the call), what Init generates, the key file write, the timing of both deadlines, the new uuid, and the answers to writes.
- **As imperative code.** These are `InitWorkflow`, `SecretResource` and `BackendResource`.
  - Resource classes hold the fields Terraform keeps: id, root token, ttl, data and configuration.
  - `InitWorkflow.Environment` and `VaultApi.Client` stand for the Vault nodes, the file system and the Vault server. Their methods answer and log each call.
  - Every operation is a method. Each is proved equal to its function, except `InitWorkflow.InitResource.Delete`, whose ensures give its new state directly. The source's own loops (the status poll, the unseal walk, the ready wait, the merge of a write's response, the mount search) are loops with invariants.

The properties are lemmas about the functions, in `InitProperties`, `SecretModel` and `BackendProperties`. `Strings` holds `strings.Join`/`strings.Split` and `strings.Contains`.

How `resourceInitCreate` behaves as written, which the model keeps:

- The id is set once the unseal walk succeeds, before the optional ready wait (`resource_init.go:211`). So a ready wait that fails still leaves the id set.
- A ready wait requested without an address fails only after Init and the unseal walk (`resource_init.go:213-216`), not before any network call.
- Seal-status and unseal errors do not carry the failing node's address (`resource_init.go:196`, `:202`).
- The status poll retries failed InitStatus calls until the timeout fires (`resource_init.go:128-145`). The ready wait retries failed probes until its deadline (`resource_init.go:226-243`).

## Model

| member | source | states |
|---|---|---|
| InitModel.CreateOutcome | plugins/terraform-provider-vaultinit/resource_init.go:115-157 | `resourceInitCreate` up to Init: a malformed timeout fails at once; the poll against the first instance; a poll error or an initialized vault ends the run; otherwise Init and the rest follow. |
| InitModel.InitializeAndUnseal | plugins/terraform-provider-vaultinit/resource_init.go:174-211 | Init; the root token; the newline-joined key file, whose error carries the keys; the unseal walk; then the new id. |
| InitModel.FinishCreate | plugins/terraform-provider-vaultinit/resource_init.go:213-245 | The optional ready wait: nothing without `wait_for_ready`, the address error for an empty address, otherwise the wait. |
| InitModel.Poll | plugins/terraform-provider-vaultinit/resource_init.go:127-145 | InitStatus again and again until an answer or the timeout, keeping the last error. |
| InitModel.UnsealKeys | plugins/terraform-provider-vaultinit/resource_init.go:199-207 | Keys in order until the node reports unsealed; the first error ends it. |
| InitModel.UnsealInstances | plugins/terraform-provider-vaultinit/resource_init.go:186-209 | Every instance in order: seal status, then keys when sealed; the first error ends the walk. |
| InitModel.WaitReady | plugins/terraform-provider-vaultinit/resource_init.go:224-243 | Every 10 s until the 10-minute deadline, a seal status probe; the first answer ends it; at the deadline the last probe error. |
| InitProperties.PollCalls | plugins/terraform-provider-vaultinit/resource_init.go:127-145 | The poll only sends InitStatus to its address, at most `attempts` times. Every attempt but the last failed in transport. The first answer ends it, carrying the node's own initialized flag. A timeout makes exactly `attempts` calls and returns the last error, or "unexpected error" when no attempt was made. |
| InitProperties.UnsealKeysCalls | plugins/terraform-provider-vaultinit/resource_init.go:198-207 | A sealed node gets a prefix of the keys, in order. Without an error it gets exactly as many as it needs, or all there are, and ends with that many accepted. Running out of keys is not an error. An error comes from the last submission and ends the loop at once. |
| InitProperties.UnsealInstancesCalls | plugins/terraform-provider-vaultinit/resource_init.go:186-209 | The walk adds only SealStatus and Unseal calls. It visits a prefix of the instances in their order, and all of them when there is no error. After an error no later instance is contacted. |
| InitProperties.UnsealInstancesNoFaults | plugins/terraform-provider-vaultinit/resource_init.go:186-209 | With no transport error the walk succeeds. Its log is exactly what the nodes' state dictates: an unsealed node is only asked; a sealed one gets the first keys it needs. |
| InitProperties.UnsealInstancesPrefix | plugins/terraform-provider-vaultinit/resource_init.go:186-209 | Whatever the transport does, the walk's calls are a prefix of the fault-free walk `ExpectedUnseal` computed from the nodes' state, and all of it when the walk succeeds. So even in a run that fails later, a node that reports unsealed gets no key, and keys go only to the node being visited, in order. Requires a node behind every instance. |
| InitProperties.SealedKeysNoFaults | plugins/terraform-provider-vaultinit/resource_init.go:198-207 | With no transport error a sealed node takes the first `min(needed, all)` keys and is left with that many accepted. |
| InitProperties.WaitReadyCalls | plugins/terraform-provider-vaultinit/resource_init.go:224-243 | The ready wait only probes seal status, at most once per 10 s of the deadline left. Every probe but the last failed. Success ends it at once. Past the deadline it returns the last probe error, or none if there was no probe. |
| InitProperties.AtMostSixtyProbes | plugins/terraform-provider-vaultinit/resource_init.go:225-228 | A 10-minute deadline with a 10 s interval allows at most 60 probes. |
| InitProperties.CreateResource | plugins/terraform-provider-vaultinit/resource_init.go:174-211 | The root token is kept from the moment Init answers. The id is set to the new uuid exactly on success or a failed ready wait; otherwise both stay as they were. A successful run always leaves a non-empty id. |
| InitProperties.CreateCalls | plugins/terraform-provider-vaultinit/resource_init.go:115-184 | Call order: a malformed timeout makes no call. Then InitStatus checks go to the first instance. Exactly one Init with the configured request follows unless the poll failed or found the vault initialized. The key file is written next unless Init failed. Only seal checks and unseals come after. |
| InitProperties.InitializeCalls | plugins/terraform-provider-vaultinit/resource_init.go:174-209 | After the poll: one Init first; the newline-joined key file right after, unless Init failed. A key-file error ends the run and carries the write error and every key. |
| InitProperties.UnsealThenFinish | plugins/terraform-provider-vaultinit/resource_init.go:186-245 | After the key file only seal checks and unseals are made. The only errors are seal-status, unseal, missing address and timeout. |
| InitProperties.FinishOnlyStatus | plugins/terraform-provider-vaultinit/resource_init.go:213-245 | The optional ready wait only probes seal status and leaves the resource as it was. Without `wait_for_ready` nothing happens and there is no error. With it and an empty address it fails with the address error and no call. Otherwise the only possible error is the deadline. |
| InitProperties.KeysInWriteError | plugins/terraform-provider-vaultinit/resource_init.go:181-184 | When the key file cannot be written, the error message contains every key. |
| InitProperties.CreateHappyPath | plugins/terraform-provider-vaultinit/resource_init.go:98-246 | With no transport error, the calls are: one status check, Init, the key file, the walk as the nodes' state dictates, and one ready probe when asked. The run ends with the new id and the generated root token. |
| InitProperties.ThresholdExample | plugins/terraform-provider-vaultinit/resource_init.go:198-208 | With 5 keys and a threshold of 3, each sealed node gets exactly the first 3 keys; an unsealed node is only asked. |
| InitProperties.EndToEndExample | plugins/terraform-provider-vaultinit/resource_init.go:98-246 | Two sealed instances with 5 shares and a threshold of 3 produce the full call log: a status check and Init against the first instance, a five-key file, then both instances in order with 3 keys each. The run ends with the id and the root token. |
| InitProperties.UnsealErrorEndsCreate | plugins/terraform-provider-vaultinit/resource_init.go:186-211 | A seal-status or unseal error ends the whole workflow. The walk stops at the instance it was working on, no ready probe is made and the id is not set. When every instance has a node behind it, the calls after the key file are a prefix of the fault-free walk over the nodes as Init left them. |
| InitProperties.UnsealErrorEndsInitialize | plugins/terraform-provider-vaultinit/resource_init.go:186-211 | The same, from the Init call on. |
| Strings.SplitJoin | plugins/terraform-provider-vaultinit/resource_init.go:181 | For at least one key, none containing a newline, the key file splits back, line by line, into exactly those keys. |
| InitWorkflow.Environment.InitStatus | plugins/terraform-provider-vaultinit/resource_init.go:137 | Answers the node's initialized flag or a transport error, and logs the call. |
| InitWorkflow.Environment.Init | plugins/terraform-provider-vaultinit/resource_init.go:174 | Answers the generated keys and token, marks the node initialized, and logs the call. |
| InitWorkflow.Environment.WriteFile | plugins/terraform-provider-vaultinit/resource_init.go:182 | Writes the key file or fails, and logs the call. |
| InitWorkflow.Environment.SealStatus | plugins/terraform-provider-vaultinit/resource_init.go:194 | Answers whether the node is sealed, and logs the call. |
| InitWorkflow.Environment.Unseal | plugins/terraform-provider-vaultinit/resource_init.go:200 | Gives the node one more key, answers whether it is still sealed, and logs the call. |
| InitWorkflow.PollInitStatus | plugins/terraform-provider-vaultinit/resource_init.go:115-148 | The polling loop leaves exactly the world and answer of `Poll`. |
| InitWorkflow.UnsealAll | plugins/terraform-provider-vaultinit/resource_init.go:186-209 | The nested instance/key loops leave exactly the world and error of `UnsealInstances`. |
| InitWorkflow.AwaitReady | plugins/terraform-provider-vaultinit/resource_init.go:224-243 | The ready loop leaves exactly the world and error of `WaitReady`. |
| InitWorkflow.InitResource.Create | plugins/terraform-provider-vaultinit/resource_init.go:98-246 | The resource's id and root token, the error and the world are exactly those of `CreateOutcome`. |
| InitWorkflow.InitResource.Delete | plugins/terraform-provider-vaultinit/resource_init.go:248-251 | Clears the id, keeps the root token, and makes no remote call. |
| Strings.HasSubstring | plugins/terraform-provider-vaultx/vault/resource_secret.go:132 | Answers true exactly when the text occurs somewhere in the string. |
| SecretModel.IsSecretNotFoundError | plugins/terraform-provider-vaultx/vault/resource_secret.go:131-133 | True exactly when "bad token" occurs in the error text. |
| SecretModel.BadTokenIsNotFound | plugins/terraform-provider-vaultx/vault/resource_secret.go:131-133 | Any error text containing "bad token", anywhere, counts as not found. |
| SecretModel.CreateOutcome | plugins/terraform-provider-vaultx/vault/resource_secret.go:59-84 | `resourceVaultSecretCreate`: the client error; the write of the data with the ttl; the merge of the response; the id set to the path. |
| SecretModel.ExistsOutcome | plugins/terraform-provider-vaultx/vault/resource_secret.go:86-102 | `resourceVaultSecretExists`: true when reads are ignored, else whether the read finds a secret. |
| SecretModel.ReadOutcome | plugins/terraform-provider-vaultx/vault/resource_secret.go:104-129 | `resourceVaultSecretRead`: the ttl taken out of the secret's data, the rest kept as the data. |
| SecretModel.DeleteOutcome | plugins/terraform-provider-vaultx/vault/resource_secret.go:135-150 | `resourceVaultSecretDelete`: the delete unless ignored, then the id cleared. |
| SecretModel.WithTtl | plugins/terraform-provider-vaultx/vault/resource_secret.go:65-68 | The data sent is the configured data, plus `ttl` under "ttl" when non-empty. |
| SecretModel.WithTtlOnlyAddsTtl | plugins/terraform-provider-vaultx/vault/resource_secret.go:65-68 | Adding the ttl changes nothing but the "ttl" entry. |
| SecretModel.Stripped | plugins/terraform-provider-vaultx/vault/resource_secret.go:122 | The read data keeps every entry but "ttl", unchanged. |
| SecretModel.CreateWrites | plugins/terraform-provider-vaultx/vault/resource_secret.go:59-84 | Create makes exactly one write of the data plus ttl to the path. It fails exactly when the write fails, returning the write's error and leaving the resource as it was. Success sets the id to the path. The response's entries override or extend the sent data; without a response the data attribute stays. |
| SecretModel.ExistsAnswers | plugins/terraform-provider-vaultx/vault/resource_secret.go:86-102 | With reads ignored, Exists is true with no call. Otherwise it makes one read; it fails exactly when the read fails, with the read's error, and else answers whether a secret is stored at the path. |
| SecretModel.ReadStripsTtl | plugins/terraform-provider-vaultx/vault/resource_secret.go:104-129 | With reads ignored nothing happens. Otherwise: one read, which fails exactly when the read call fails, with its error; on success the data becomes the secret without "ttl"; the ttl comes from the secret when present. Errors leave the resource as it was. |
| SecretModel.CreateThenRead | plugins/terraform-provider-vaultx/vault/resource_secret.go:59-129 | When the write answers no data of its own and neither call fails in transport, Read after Create gives back the data without "ttl", and the configured ttl or else the data's own "ttl". A resource without a "ttl" entry comes back unchanged apart from its id. |
| SecretModel.CreateThenExists | plugins/terraform-provider-vaultx/vault/resource_secret.go:59-102 | After a successful Create, Exists answers true. |
| SecretModel.DeleteForgets | plugins/terraform-provider-vaultx/vault/resource_secret.go:135-150 | Delete makes one delete call, or none when ignored. It fails exactly when that call fails, returning its error and keeping the id. Otherwise the id is cleared and the secret is gone. |
| SecretResource.MergeResponse | plugins/terraform-provider-vaultx/vault/resource_secret.go:75-80 | The merged map has the keys of both maps. Response values win; the others keep the sent values. |
| SecretResource.Secret.Create | plugins/terraform-provider-vaultx/vault/resource_secret.go:59-84 | The fields, error and store are exactly those of `SecretModel.CreateOutcome`. |
| SecretResource.Secret.Update | plugins/terraform-provider-vaultx/vault/resource_secret.go:13 | Update is Create: the same outcome. |
| SecretResource.Secret.Exists | plugins/terraform-provider-vaultx/vault/resource_secret.go:86-102 | The answer, error and store are exactly those of `ExistsOutcome`; an error answers false. |
| SecretResource.Secret.Read | plugins/terraform-provider-vaultx/vault/resource_secret.go:104-129 | The fields, error and store are exactly those of `SecretModel.ReadOutcome`. |
| SecretResource.Secret.Delete | plugins/terraform-provider-vaultx/vault/resource_secret.go:135-150 | The fields, error and store are exactly those of `SecretModel.DeleteOutcome`. |
| BackendModel.CreateOutcome | plugins/terraform-provider-vaultx/vault/resource_secret_backend.go:96-122 | `resourceVaultSecretBackendCreate`: the client error; the mount at the path or the type; the mount error; id and path set. |
| BackendModel.ConfigureAndRead | plugins/terraform-provider-vaultx/vault/resource_secret_backend.go:123-130 | The postgresql block when there is one, its error returned, then the read. |
| BackendModel.ReadOutcome | plugins/terraform-provider-vaultx/vault/resource_secret_backend.go:133-169 | `resourceVaultSecretBackendRead`: the listing, the search, the id cleared when not found, the mount config and its TTLs. |
| BackendModel.UpdateOutcome | plugins/terraform-provider-vaultx/vault/resource_secret_backend.go:171-185 | `resourceVaultSecretBackendUpdate` with the plan in the data: the client error, then the tuning when either TTL changed. |
| BackendModel.UpdateRemount | plugins/terraform-provider-vaultx/vault/resource_secret_backend.go:187-194 | The remount on a path change, the id following the new path. |
| BackendModel.UpdatePostgresql | plugins/terraform-provider-vaultx/vault/resource_secret_backend.go:196-203 | The postgresql block applied again when it changed and one remains (the corrected guard). |
| BackendModel.DeleteOutcome | plugins/terraform-provider-vaultx/vault/resource_secret_backend.go:206-218 | `resourceVaultSecretBackendDelete`: the client error, the unmount of the id, its error wrapped with the id. |
| BackendModel.ConfigPostgresqlOutcome | plugins/terraform-provider-vaultx/vault/resource_secret_backend.go:220-252 | The postgresql configuration never changes the mount table. |
| BackendProperties.PostgresqlCalls | plugins/terraform-provider-vaultx/vault/resource_secret_backend.go:227-249 | The connection is written first. The lease is written next only when both lease settings are given. The first failed write ends it with its error; success means every write went through. |
| BackendProperties.MountedAtKey | plugins/terraform-provider-vaultx/vault/resource_secret_backend.go:144-149 | A backend mounted at the id is found. When every key ends in "/", the id is found only if that exact mount exists. |
| BackendResource.FindMount | plugins/terraform-provider-vaultx/vault/resource_secret_backend.go:144-149 | The loop finds the id exactly when some mount key, less its last character, equals it. |
| BackendProperties.ReadFinds | plugins/terraform-provider-vaultx/vault/resource_secret_backend.go:133-156 | Read lists the mounts; a listing error is returned as "Error listing mounts" and leaves the resource as it was. If the id is not found, it clears the id with no error and no further call. If found, it reads the mount config of the id next. The mount table never changes. |
| BackendProperties.ReadMountConfig | plugins/terraform-provider-vaultx/vault/resource_secret_backend.go:157-168 | For a found backend, Read succeeds exactly when the mount config call goes through and the id is mounted; the lease TTLs then come from the mount. Otherwise it returns "Error checking mount config for" the id with the cause, and the resource stays as it was. |
| BackendProperties.ReadMountedKeepsId | plugins/terraform-provider-vaultx/vault/resource_secret_backend.go:144-155 | Read keeps the id and path of a backend mounted at its id, and starts with a mount listing. |
| BackendProperties.CreateMounts | plugins/terraform-provider-vaultx/vault/resource_secret_backend.go:96-131 | Create mounts at the path, or at the type when the path is empty. A mount error is returned as "Error creating secret backend" with the path and the cause, and leaves the resource as it was. After a mount the id and path are the mount path and stay so. The connection write comes next when there is a block; otherwise the mount listing. |
| BackendProperties.ConfigureKeepsId | plugins/terraform-provider-vaultx/vault/resource_secret_backend.go:123-130 | After the mount, the postgresql writes and the read keep the id and path. |
| BackendProperties.CreateReadsBack | plugins/terraform-provider-vaultx/vault/resource_secret_backend.go:96-169 | With no transport error, Create makes exactly these calls: mount, the postgresql writes, the listing, the config read. It ends with id and path at the mount path and the TTLs read back as configured. |
| BackendProperties.UpdateTunes | plugins/terraform-provider-vaultx/vault/resource_secret_backend.go:171-185 | The first call tunes the mount exactly when either TTL changed. A tuning error ends Update and keeps the id. Without a TTL change there is no TuneMount. The data holds the plan throughout. |
| BackendProperties.RemountCalls | plugins/terraform-provider-vaultx/vault/resource_secret_backend.go:187-194 | A path change remounts from the old path to the new one; success moves the id to the new path and an error ends Update with the id kept. Without a path change there is no Remount. |
| BackendProperties.PostgresqlUpdateCalls | plugins/terraform-provider-vaultx/vault/resource_secret_backend.go:196-201 | A changed block is applied again with the postgresql writes for the current id. An unchanged or removed block makes no call. Whenever a block remains, the guard agrees with the source's. |
| BackendProperties.RemovedBlockAsWritten | plugins/terraform-provider-vaultx/vault/resource_secret_backend.go:196-201 | The source's guard admits exactly one case the intended guard refuses: a plan that removes the block. |
| BackendProperties.RemovedBlockExample | plugins/terraform-provider-vaultx/vault/resource_secret_backend.go:225 | A concrete plan removing the block passes the source's guard and leaves no block 0 to index. |
| BackendProperties.DeleteUnmountsId | plugins/terraform-provider-vaultx/vault/resource_secret_backend.go:206-218 | Delete makes exactly one unmount of the id and fails exactly when it fails. Success leaves nothing mounted there. The resource is unchanged. |
| BackendResource.SecretBackend.ConfigurePostgresql | plugins/terraform-provider-vaultx/vault/resource_secret_backend.go:220-252 | The error and store are exactly those of `ConfigPostgresqlOutcome`. |
| BackendResource.SecretBackend.Read | plugins/terraform-provider-vaultx/vault/resource_secret_backend.go:133-169 | The fields, error and store are exactly those of `BackendModel.ReadOutcome`. |
| BackendResource.SecretBackend.Create | plugins/terraform-provider-vaultx/vault/resource_secret_backend.go:96-131 | The fields, error and store are exactly those of `BackendModel.CreateOutcome`. |
| BackendResource.SecretBackend.Update | plugins/terraform-provider-vaultx/vault/resource_secret_backend.go:171-204 | The fields, error and store are exactly those of `UpdateOutcome`, with the corrected postgresql guard. |
| BackendResource.SecretBackend.Delete | plugins/terraform-provider-vaultx/vault/resource_secret_backend.go:206-218 | The error and store are exactly those of `BackendModel.DeleteOutcome`. |
| VaultApi.StepsKeepValidMounts | plugins/terraform-provider-vaultx/vault/resource_secret_backend.go:146 | Mount, tune, remount and unmount never create an empty mount key, so slicing off the last character is always defined; it is used to establish this for the store after Create's mount. |

## Left out

- The goroutine and `time.AfterFunc` race of the status poll is not modelled as concurrency. The oracle's `pollAttempts` says how many InitStatus attempts start before the timeout fires.
- The wall clock of the ready wait is modelled as elapsed seconds: each tick takes 10 s plus an oracle delay, against a 600 s deadline.
- `time.ParseDuration` of the response timeout is modelled only as the oracle's `timeoutError`. The duration itself is not modelled.
- `time.Duration.String` of the TTLs read back is not modelled: TTLs are kept as the strings the mount table holds. So `BackendProperties.CreateReadsBack` sees the configured strings, not Vault's normalised seconds.
- TLS configuration (`allow_unverified_ssl`), `api.DefaultConfig` and `api.NewClient` errors are left out. A vaultx client failure is the oracle's `clientError`, returned before any call.
- Vault's own key splitting and PGP encryption of the keys are not modelled. Init answers the oracle's generated token and keys.
- The 0600 file mode of the key file is not modelled; the write is one logged call with an oracle outcome.
- `uuid.NewV4` is the oracle's `newId`, a non-empty string (`InitModel.Uuid`); its format is not modelled.
- `log.Printf` output, the resource schemas and their defaults, `data_secret.go` and `provider.go` are not part of this model.
- Errors from `d.Set` are not modelled.
- SecretModel.ReadOutcome: secret values are modelled as strings (`SecretState.data` is a `map<string, string>`), where Go holds `interface{}` values. So non-string values in a write's response (`resource_secret.go:76-78`) or in a read secret (`:118-124`) are not modelled, and neither is the panic of the `ttl.(string)` assertion at `:119` when the stored ttl is not a string.
- The order of Go map iteration is not modelled. The merge and the mount search give the same result in every order.
- `HasChange` on the postgresql block set is modelled as inequality of the block lists.
- Go's `%q` escaping of paths is modelled as plain double quotes (`Quote`).
- InitWorkflow.InitResource.Create: requires a non-empty instance list, because Go indexes `instances[0]` and panics on an empty list.
- SecretResource.Secret.Read: requires that the read answers a secret (`ReadFindsSecret`). Go dereferences a nil secret and panics otherwise, so a missing secret is left out.
- BackendResource.SecretBackend.Update: uses the corrected postgresql guard (see Findings), so a plan that removes the block makes no call where the source panics. The guard as written is stated in `BackendProperties.RemovedBlockAsWritten`.
- BackendModel.UpdateOutcome: the same corrected guard, through `BackendModel.UpdatePostgresql`.

## Findings

| source | as written | input that shows it | evidently intended | confidence | as-written member | corrected member |
|---|---|---|---|---|---|---|
| plugins/terraform-provider-vaultx/vault/resource_secret_backend.go:196-201 | Update re-applies the postgresql configuration whenever the `postgresql` block set changed. The configuration then indexes block 0 of the new set (line 225). | A backend created with one postgresql block, then a plan that removes the block: the set changed, and the new list is empty, so indexing block 0 panics. | Re-apply only when the set changed and a block remains. | not executed | BackendProperties.RemovedBlockAsWritten | BackendProperties.PostgresqlUpdateCalls |

=== FILE: backend_model.dfy ===
/** The `vault_secret_backend` resource as functions on values: which calls each
    operation makes to Vault, in what order, and what it leaves in the
    resource's state. */
module BackendModel {
  import opened Wrappers
  import opened VaultApi

  /** One `postgresql` block. */
  datatype Postgresql = Postgresql(
    connectionUrl: string,
    maxOpenConnections: int,
    maxIdleConnections: int,
    verifyConnection: bool,
    lease: string,
    leaseMax: string)

  /** The resource's attributes; `postgresql` is the block set in its list order. */
  datatype BackendConfig = BackendConfig(
    typ: string,
    path: string,
    description: string,
    defaultLeaseTtl: string,
    maxLeaseTtl: string,
    postgresql: seq<Postgresql>)

  /** The resource's data as Terraform holds it: the id and the attributes. */
  datatype BackendState = BackendState(id: string, config: BackendConfig)

  /** What an operation returns and leaves behind. */
  datatype Outcome = Outcome(err: Option<string>, state: BackendState, store: Store)

  /** What the postgresql configuration returns and leaves behind. */
  datatype Effect = Effect(err: Option<string>, store: Store)

  /** Go's `%q` of a path (escaping of special characters is not modelled). */
  function Quote(s: string): string
  {
    "\"" + s + "\""
  }

  /** Where the backend is mounted: its path, or its type when no path is given. */
  function MountPath(cfg: BackendConfig): string
  {
    if cfg.path == "" then cfg.typ else cfg.path
  }

  function MountInputOf(cfg: BackendConfig): MountInput
  {
    MountInput(cfg.typ, cfg.description, cfg.defaultLeaseTtl, cfg.maxLeaseTtl)
  }

  /** Some mount key, with its last character dropped, equals `id`. */
  predicate MountedAt(mounts: map<string, MountEntry>, id: string)
  {
    exists key | key in mounts :: key != "" && key[..|key| - 1] == id
  }

  function ConnectionOf(pg: Postgresql): Payload
  {
    Connection(pg.connectionUrl, pg.maxOpenConnections, pg.maxIdleConnections, pg.verifyConnection)
  }

  /** Both lease settings are given. */
  predicate HasLease(pg: Postgresql)
  {
    pg.lease != "" && pg.leaseMax != ""
  }

  /** The writes the postgresql configuration makes when none of them fails:
      the connection, then the lease when both lease settings are given. */
  function PostgresqlRequests(id: string, pg: Postgresql): seq<Call>
  {
    [Write(id + "/config/connection", ConnectionOf(pg))]
      + (if HasLease(pg) then [Write(id + "/config/lease", Lease(pg.lease, pg.leaseMax))] else [])
  }

  /** `resourceVaultSecretBackendConfigPostgresql` for the block `pg` of the
      backend mounted at `id`: each write in turn, stopping at the first error. */
  function ConfigPostgresqlOutcome(o: Oracle, s: Store, id: string, pg: Postgresql): (r: Effect)
    ensures r.store.mounts == s.mounts
  {
    if o.clientError.Some? then Effect(o.clientError, s)
    else
      var c := WriteStep(o, s, id + "/config/connection", ConnectionOf(pg));
      if c.result.Err? then Effect(Some(c.result.error), c.after)
      else if HasLease(pg) then
        var l := WriteStep(o, c.after, id + "/config/lease", Lease(pg.lease, pg.leaseMax));
        Effect(if l.result.Err? then Some(l.result.error) else None, l.after)
      else Effect(None, c.after)
  }

  /** `resourceVaultSecretBackendRead`: the backend is found when a mount key,
      less its trailing character, is the id; a backend not found is forgotten
      without error; a found one has its lease TTLs read back. */
  function ReadOutcome(o: Oracle, s: Store, st: BackendState): Outcome
    requires ValidMounts(s)
  {
    if o.clientError.Some? then Outcome(o.clientError, st, s)
    else
      var l := ListMountsStep(o, s);
      match l.result
      case Err(e) => Outcome(Some("Error listing mounts: " + e), st, l.after)
      case Ok(mounts) =>
        if !MountedAt(mounts, st.id) then Outcome(None, st.(id := ""), l.after)
        else
          var c := MountConfigStep(o, l.after, st.id);
          match c.result
          case Err(e) => Outcome(Some("Error checking mount config for " + Quote(st.id) + ": " + e), st, c.after)
          case Ok(entry) =>
            var read := st.config.(defaultLeaseTtl := entry.defaultLeaseTtl, maxLeaseTtl := entry.maxLeaseTtl);
            Outcome(None, st.(config := read), c.after)
  }

  /** `resourceVaultSecretBackendCreate`: mount, record the id and path, apply a
      postgresql block if there is one, then read the backend back. */
  function CreateOutcome(o: Oracle, s: Store, st: BackendState): Outcome
    requires ValidMounts(s)
  {
    if o.clientError.Some? then Outcome(o.clientError, st, s)
    else
      var path := MountPath(st.config);
      var m := MountStep(o, s, path, MountInputOf(st.config));
      match m.result
      case Err(e) => Outcome(Some("Error creating secret backend " + Quote(path) + ": " + e), st, m.after)
      case Ok(_) => ConfigureAndRead(o, m.after, BackendState(path, st.config.(path := path)))
  }

  /** The rest of Create once the backend is mounted: apply the first postgresql
      block, if there is one, then read the backend back. */
  function ConfigureAndRead(o: Oracle, s: Store, mounted: BackendState): Outcome
    requires ValidMounts(s)
  {
    if |mounted.config.postgresql| > 0 then
      var p := ConfigPostgresqlOutcome(o, s, mounted.id, mounted.config.postgresql[0]);
      if p.err.Some? then Outcome(p.err, mounted, p.store)
      else ReadOutcome(o, p.store, mounted)
    else ReadOutcome(o, s, mounted)
  }

  /** Either lease TTL differs between the prior state and the plan. */
  predicate TtlChanged(prior: BackendConfig, planned: BackendConfig)
  {
    prior.defaultLeaseTtl != planned.defaultLeaseTtl || prior.maxLeaseTtl != planned.maxLeaseTtl
  }

  /** The postgresql guard of `resourceVaultSecretBackendUpdate` as written: the
      block set changed. */
  predicate PostgresqlChangedAsWritten(prior: BackendConfig, planned: BackendConfig)
  {
    prior.postgresql != planned.postgresql
  }

  /** The guard as evidently intended: the block set changed and a block is
      still there to apply. */
  predicate PostgresqlChanged(prior: BackendConfig, planned: BackendConfig)
  {
    prior.postgresql != planned.postgresql && |planned.postgresql| > 0
  }

  /** `resourceVaultSecretBackendUpdate` for the plan `planned` (which the
      resource's data holds from the start): tune the lease TTLs if either
      changed, then the remount and the postgresql block. */
  function UpdateOutcome(o: Oracle, s: Store, st: BackendState, planned: BackendConfig): Outcome
  {
    var d := st.(config := planned);
    if o.clientError.Some? then Outcome(o.clientError, d, s)
    else if TtlChanged(st.config, planned) then
      var t := TuneMountStep(o, s, st.id, planned.defaultLeaseTtl, planned.maxLeaseTtl);
      if t.result.Err? then Outcome(Some("Error while tuning secret backend " + Quote(st.id) + ": " + t.result.error), d, t.after)
      else UpdateRemount(o, t.after, st.config, d)
    else UpdateRemount(o, s, st.config, d)
  }

  /** A path change remounts the backend from the old path to the new one, and
      the id follows it. */
  function UpdateRemount(o: Oracle, s: Store, prior: BackendConfig, d: BackendState): Outcome
  {
    if prior.path != d.config.path then
      var r := RemountStep(o, s, prior.path, d.config.path);
      if r.result.Err? then Outcome(Some("Error while remounting " + Quote(d.id) + ": " + r.result.error), d, r.after)
      else UpdatePostgresql(o, r.after, prior, d.(id := d.config.path))
    else UpdatePostgresql(o, s, prior, d)
  }

  /** A changed postgresql block is applied again. */
  function UpdatePostgresql(o: Oracle, s: Store, prior: BackendConfig, d: BackendState): Outcome
  {
    if PostgresqlChanged(prior, d.config) then
      var p := ConfigPostgresqlOutcome(o, s, d.id, d.config.postgresql[0]);
      Outcome(p.err, d, p.store)
    else Outcome(None, d, s)
  }

  /** `resourceVaultSecretBackendDelete`: unmount the id. */
  function DeleteOutcome(o: Oracle, s: Store, st: BackendState): Outcome
  {
    if o.clientError.Some? then Outcome(o.clientError, st, s)
    else
      var u := UnmountStep(o, s, st.id);
      if u.result.Err? then Outcome(Some("Error deleting secret backend " + Quote(st.id) + ": " + u.result.error), st, u.after)
      else Outcome(None, st, u.after)
  }
}

=== FILE: backend_properties.dfy ===
/** What the `vault_secret_backend` operations promise, proved about
    `BackendModel`. */
module BackendProperties {
  import opened Wrappers
  import opened VaultApi
  import opened BackendModel

  /** The calls `after` added to the log of `before`. */
  function AddedCalls(before: Store, after: Store): seq<Call>
  {
    if |before.log| <= |after.log| then after.log[|before.log|..] else []
  }

  // ---------------------------------------------------------------------------
  // Finding the mount

  /** A backend mounted at `id` is found. Conversely, when every mount key ends
      with "/" (as the server reports them), the id is found only if the backend
      mounted at exactly that path exists. */
  lemma MountedAtKey(mounts: map<string, MountEntry>, id: string)
    ensures MountKey(id) in mounts ==> MountedAt(mounts, id)
    ensures MountedAt(mounts, id) && (forall k | k in mounts :: k != "" && k[|k| - 1] == '/') ==> MountKey(id) in mounts
  {
    var key := MountKey(id);
    if key in mounts {
      assert key[..|key| - 1] == id;
    }
    if MountedAt(mounts, id) && (forall k | k in mounts :: k != "" && k[|k| - 1] == '/') {
      var k :| k in mounts && k != "" && k[..|k| - 1] == id;
      assert k == k[..|k| - 1] + [k[|k| - 1]];
    }
  }

  // ---------------------------------------------------------------------------
  // The postgresql configuration

  /** The connection is written first; the lease is written next only when both
      lease settings are given; the first failed write ends it with that error. */
  lemma PostgresqlCalls(o: Oracle, s: Store, id: string, pg: Postgresql)
    requires o.clientError.None?
    ensures var e := ConfigPostgresqlOutcome(o, s, id, pg);
      var requests := PostgresqlRequests(id, pg);
      var n := |e.store.log| - |s.log|;
      && 0 < n <= |requests|
      && e.store.log == s.log + requests[..n]
      && (forall i | |s.log| <= i < |e.store.log| - 1 :: i !in o.faults)
      && (e.err.None? <==> n == |requests| && |e.store.log| - 1 !in o.faults)
      && (e.err.Some? ==> e.err == Some(o.faults[|e.store.log| - 1]))
  {
    var requests := PostgresqlRequests(id, pg);
    var e := ConfigPostgresqlOutcome(o, s, id, pg);
    if |s.log| in o.faults || !HasLease(pg) {
      assert requests[..1] == [requests[0]];
    } else {
      assert requests[..2] == requests;
    }
  }

  // ---------------------------------------------------------------------------
  // Read

  /** Read first lists the mounts; a listing error is returned at once and
      leaves the resource as it was. With the listing, the id is cleared, with
      no error and no further call, exactly when no mount key less its last
      character is the id. Otherwise the mount config of the id is read: it
      succeeds exactly when that call goes through and the id is mounted, and
      then the lease TTLs come from it and the id stays; if not, the error names
      the id. */
  lemma ReadFinds(o: Oracle, s: Store, st: BackendState)
    requires o.clientError.None? && ValidMounts(s)
    ensures var out := ReadOutcome(o, s, st);
      && (|s.log| in o.faults ==>
            out == Outcome(Some("Error listing mounts: " + o.faults[|s.log|]), st, Logged(s, ListMounts)))
      && (|s.log| !in o.faults ==>
            && (!MountedAt(s.mounts, st.id) <==> out.store.log == s.log + [ListMounts])
            && (!MountedAt(s.mounts, st.id) ==> out.err.None? && out.state == st.(id := ""))
            && (MountedAt(s.mounts, st.id) ==> out.store.log == s.log + [ListMounts, MountConfig(st.id)]))
      && out.store.mounts == s.mounts
  {
    var l := ListMountsStep(o, s);
    if |s.log| !in o.faults {
      assert l == Step(Ok(s.mounts), Logged(s, ListMounts));
      if MountedAt(s.mounts, st.id) {
        assert Logged(l.after, MountConfig(st.id)).log == s.log + [ListMounts, MountConfig(st.id)];
      }
    }
  }

  /** The mount config read of a found backend: it fails exactly when the call
      fails in transport or nothing is mounted at the id, with an error that
      names the id; on success the lease TTLs come from the mount and nothing
      else changes. */
  lemma ReadMountConfig(o: Oracle, s: Store, st: BackendState)
    requires o.clientError.None? && ValidMounts(s)
    requires |s.log| !in o.faults && MountedAt(s.mounts, st.id)
    ensures var out := ReadOutcome(o, s, st);
      && (out.err.None? <==> |s.log| + 1 !in o.faults && MountKey(st.id) in s.mounts)
      && (out.err.Some? ==>
            && out.state == st
            && out.err.value == "Error checking mount config for " + Quote(st.id) + ": "
                 + (if |s.log| + 1 in o.faults then o.faults[|s.log| + 1] else NoMount(st.id)))
      && (out.err.None? ==>
            var entry := s.mounts[MountKey(st.id)];
            out.state == st.(config := st.config.(defaultLeaseTtl := entry.defaultLeaseTtl, maxLeaseTtl := entry.maxLeaseTtl)))
  {
    assert ListMountsStep(o, s) == Step(Ok(s.mounts), Logged(s, ListMounts));
  }

  // ---------------------------------------------------------------------------
  // Create

  /** Create mounts the backend at its path, or at its type when the path is
      empty. A mount error is returned at once and leaves the resource as it
      was. After a successful mount the id and the path are the mount path and
      stay so: the read that ends Create always finds the backend it mounted.
      The postgresql block is applied, connection first, only when there is
      one. */
  lemma CreateMounts(o: Oracle, s: Store, st: BackendState)
    requires o.clientError.None? && ValidMounts(s)
    ensures var out := CreateOutcome(o, s, st);
      var path := MountPath(st.config);
      var mount := Mount(path, MountInputOf(st.config));
      && path == (if st.config.path == "" then st.config.typ else st.config.path)
      && |s.log| < |out.store.log| && out.store.log[..|s.log| + 1] == s.log + [mount]
      && (|s.log| in o.faults ==>
            && out.err == Some("Error creating secret backend " + Quote(path) + ": " + o.faults[|s.log|])
            && out.state == st && out.store.log == s.log + [mount])
      && (|s.log| !in o.faults ==>
            && out.state.id == path && out.state.config.path == path
            && |s.log| + 1 < |out.store.log|
            && (|st.config.postgresql| == 0 ==> out.store.log[|s.log| + 1] == ListMounts)
            && (|st.config.postgresql| > 0 ==>
                  out.store.log[|s.log| + 1] == Write(path + "/config/connection", ConnectionOf(st.config.postgresql[0]))))
  {
    var path := MountPath(st.config);
    var m := MountStep(o, s, path, MountInputOf(st.config));
    if |s.log| !in o.faults {
      var mounted := BackendState(path, st.config.(path := path));
      assert MountKey(path) in m.after.mounts;
      ConfigureKeepsId(o, m.after, mounted);
    }
  }

  /** After the mount, the postgresql writes (connection first) and the read
      keep the id and the path. */
  lemma ConfigureKeepsId(o: Oracle, s: Store, mounted: BackendState)
    requires o.clientError.None? && ValidMounts(s) && MountKey(mounted.id) in s.mounts
    ensures var out := ConfigureAndRead(o, s, mounted);
      && out.state.id == mounted.id && out.state.config.path == mounted.config.path
      && |s.log| < |out.store.log| && out.store.log[..|s.log|] == s.log
      && (|mounted.config.postgresql| == 0 ==> out.store.log[|s.log|] == ListMounts)
      && (|mounted.config.postgresql| > 0 ==>
            out.store.log[|s.log|] == Write(mounted.id + "/config/connection", ConnectionOf(mounted.config.postgresql[0])))
  {
    if |mounted.config.postgresql| > 0 {
      var pg := mounted.config.postgresql[0];
      PostgresqlCalls(o, s, mounted.id, pg);
      var p := ConfigPostgresqlOutcome(o, s, mounted.id, pg);
      assert p.store.log[|s.log|] == Write(mounted.id + "/config/connection", ConnectionOf(pg));
      assert p.store.log[..|s.log|] == s.log;
      if p.err.None? {
        ReadMountedKeepsId(o, p.store, mounted);
        var out := ReadOutcome(o, p.store, mounted);
        assert out.store.log[..|s.log|] == p.store.log[..|s.log|];
        assert out.store.log[|s.log|] == p.store.log[|s.log|];
      }
    } else {
      ReadMountedKeepsId(o, s, mounted);
    }
  }

  /** Read keeps the id and the path of a backend that is mounted at its id,
      and only adds calls to the log. */
  lemma ReadMountedKeepsId(o: Oracle, s: Store, st: BackendState)
    requires o.clientError.None? && ValidMounts(s) && MountKey(st.id) in s.mounts
    ensures var out := ReadOutcome(o, s, st);
      && out.state.id == st.id && out.state.config.path == st.config.path
      && |s.log| < |out.store.log| && out.store.log[..|s.log|] == s.log && out.store.log[|s.log|] == ListMounts
  {
    MountedAtKey(s.mounts, st.id);
    var out := ReadOutcome(o, s, st);
    assert out.store.log[..|s.log| + 1] == s.log + [ListMounts];
  }

  /** With no transport error, Create makes exactly the mount, the postgresql
      writes (when there is a block), the mount listing and the mount config
      read, and ends with the id and the path at the mount path and the lease
      TTLs read back as they were configured. */
  lemma CreateReadsBack(o: Oracle, s: Store, st: BackendState)
    requires o.clientError.None? && ValidMounts(s)
    requires forall i | i in o.faults :: i < |s.log|
    ensures var out := CreateOutcome(o, s, st);
      var path := MountPath(st.config);
      var pg := if |st.config.postgresql| > 0 then PostgresqlRequests(path, st.config.postgresql[0]) else [];
      && out.err.None?
      && out.state == BackendState(path, st.config.(path := path))
      && out.store.log == s.log + [Mount(path, MountInputOf(st.config))] + pg + [ListMounts, MountConfig(path)]
  {
    var path := MountPath(st.config);
    var m := MountStep(o, s, path, MountInputOf(st.config));
    var mounted := BackendState(path, st.config.(path := path));
    StepsKeepValidMounts(o, s, path, path, MountInputOf(st.config), "", "");
    var w := m.after;
    if |mounted.config.postgresql| > 0 {
      var pgBlock := mounted.config.postgresql[0];
      PostgresqlCalls(o, m.after, path, pgBlock);
      w := ConfigPostgresqlOutcome(o, m.after, path, pgBlock).store;
      assert w.log == s.log + [Mount(path, MountInputOf(st.config))] + PostgresqlRequests(path, pgBlock);
    }
    assert ValidMounts(w);
    assert MountKey(path) in w.mounts && w.mounts[MountKey(path)] == MountEntry(st.config.typ, st.config.description, st.config.defaultLeaseTtl, st.config.maxLeaseTtl);
    ReadFinds(o, w, mounted);
    MountedAtKey(w.mounts, path);
    ReadMountConfig(o, w, mounted);
  }

  // ---------------------------------------------------------------------------
  // Update

  /** Update tunes the mount, with the planned TTLs, exactly when either TTL
      changed, and as its first call; a tuning error is returned at once and
      leaves the id (so does tuning a path where nothing is mounted). Without a
      TTL change no TuneMount call is made at all. The resource's data holds
      the plan throughout. */
  lemma UpdateTunes(o: Oracle, s: Store, st: BackendState, planned: BackendConfig)
    requires o.clientError.None?
    ensures var out := UpdateOutcome(o, s, st, planned);
      var added := AddedCalls(s, out.store);
      && out.store.log == s.log + added
      && out.state.config == planned
      && (forall c | c in added :: c.TuneMount? || c.Remount? || c.Write?)
      && (TtlChanged(st.config, planned) ==>
            && added != [] && added[0] == TuneMount(st.id, planned.defaultLeaseTtl, planned.maxLeaseTtl)
            && (|s.log| in o.faults || MountKey(st.id) !in s.mounts ==>
                  added == [added[0]] && out.state.id == st.id && out.err.Some?))
      && (!TtlChanged(st.config, planned) ==> forall c | c in added :: !c.TuneMount?)
  {
    var d := st.(config := planned);
    if TtlChanged(st.config, planned) {
      var t := TuneMountStep(o, s, st.id, planned.defaultLeaseTtl, planned.maxLeaseTtl);
      assert t.after.log == s.log + [TuneMount(st.id, planned.defaultLeaseTtl, planned.maxLeaseTtl)];
      if t.result.Ok? {
        RemountAfter(o, s, t.after, st.config, d);
      }
    } else {
      RemountAfter(o, s, s, st.config, d);
    }
  }

  /** The remount step of Update, after the calls from `s` to `w` (none, or the
      tuning): the calls it adds follow those, and are remounts and writes. */
  lemma RemountAfter(o: Oracle, s: Store, w: Store, prior: BackendConfig, d: BackendState)
    requires o.clientError.None?
    requires w.log == s.log + AddedCalls(s, w)
    requires forall c | c in AddedCalls(s, w) :: c.TuneMount?
    ensures var out := UpdateRemount(o, w, prior, d);
      && out.store.log == s.log + AddedCalls(s, out.store)
      && AddedCalls(s, out.store) == AddedCalls(s, w) + AddedCalls(w, out.store)
      && out.state.config == d.config
      && (forall c | c in AddedCalls(s, out.store) :: c.TuneMount? || c.Remount? || c.Write?)
      && (forall c | c in AddedCalls(w, out.store) :: !c.TuneMount?)
  {
    RemountCalls(o, w, prior, d);
    var out := UpdateRemount(o, w, prior, d);
    AddedConcat(s, w, out.store);
  }

  /** A path change remounts the backend from the prior path to the planned
      one, as the next call. A remount error is returned at once and leaves the
      id; after a successful remount the id is the new path. Without a path
      change no Remount call is made and the id stays. Only Remount and the
      postgresql writes are added. */
  lemma RemountCalls(o: Oracle, s: Store, prior: BackendConfig, d: BackendState)
    requires o.clientError.None?
    ensures var out := UpdateRemount(o, s, prior, d);
      var added := AddedCalls(s, out.store);
      && out.store.log == s.log + added
      && out.state.config == d.config
      && (forall c | c in added :: c.Remount? || c.Write?)
      && (prior.path != d.config.path ==>
            && added != [] && added[0] == Remount(prior.path, d.config.path)
            && (|s.log| in o.faults || MountKey(prior.path) !in s.mounts ==>
                  added == [added[0]] && out.state.id == d.id && out.err.Some?)
            && (|s.log| !in o.faults && MountKey(prior.path) in s.mounts ==> out.state.id == d.config.path))
      && (prior.path == d.config.path ==> out.state.id == d.id && forall c | c in added :: c.Write?)
  {
    if prior.path != d.config.path {
      var r := RemountStep(o, s, prior.path, d.config.path);
      assert r.after.log == s.log + [Remount(prior.path, d.config.path)];
      if r.result.Ok? {
        var moved := d.(id := d.config.path);
        PostgresqlUpdateCalls(o, r.after, prior, moved);
        var out := UpdatePostgresql(o, r.after, prior, moved);
        assert UpdateRemount(o, s, prior, d) == out;
        AddedConcat(s, r.after, out.store);
      }
    } else {
      PostgresqlUpdateCalls(o, s, prior, d);
    }
  }

  /** Calls added in two stretches are the calls of the first, then of the second. */
  lemma AddedConcat(a: Store, b: Store, c: Store)
    requires b.log == a.log + AddedCalls(a, b) && c.log == b.log + AddedCalls(b, c)
    ensures c.log == a.log + AddedCalls(a, c)
    ensures AddedCalls(a, c) == AddedCalls(a, b) + AddedCalls(b, c)
  {
    assert c.log == a.log + (AddedCalls(a, b) + AddedCalls(b, c));
  }

  /** A changed postgresql block is applied again, with the writes of the
      postgresql configuration for the current id; an unchanged or removed
      block makes no call and no error. Whenever the plan still has a block,
      the guard is the one of the source. */
  lemma PostgresqlUpdateCalls(o: Oracle, s: Store, prior: BackendConfig, d: BackendState)
    requires o.clientError.None?
    ensures var out := UpdatePostgresql(o, s, prior, d);
      var added := AddedCalls(s, out.store);
      && out.store.log == s.log + added
      && out.state == d
      && (forall c | c in added :: c.Write?)
      && (PostgresqlChanged(prior, d.config) ==>
            && 0 < |added| && added == PostgresqlRequests(d.id, d.config.postgresql[0])[..|added|]
            && (out.err.None? ==> added == PostgresqlRequests(d.id, d.config.postgresql[0])))
      && (!PostgresqlChanged(prior, d.config) ==> added == [] && out.err.None?)
      && (|d.config.postgresql| > 0 ==> (PostgresqlChanged(prior, d.config) <==> PostgresqlChangedAsWritten(prior, d.config)))
  {
    if PostgresqlChanged(prior, d.config) {
      var pg := d.config.postgresql[0];
      PostgresqlCalls(o, s, d.id, pg);
      var p := ConfigPostgresqlOutcome(o, s, d.id, pg);
      var requests := PostgresqlRequests(d.id, pg);
      var n := |p.store.log| - |s.log|;
      assert AddedCalls(s, p.store) == requests[..n];
      assert forall c | c in requests :: c.Write?;
      if p.err.None? {
        assert requests[..n] == requests;
      }
    } else {
      assert AddedCalls(s, s) == [];
    }
  }

  /** The source's postgresql guard admits exactly one kind of plan that the
      intended guard refuses: a block was there and the plan removes it, so
      that the list of blocks the source then indexes at 0 is empty. */
  lemma RemovedBlockAsWritten(prior: BackendConfig, planned: BackendConfig)
    ensures PostgresqlChangedAsWritten(prior, planned) && !PostgresqlChanged(prior, planned)
        <==> prior.postgresql != [] && planned.postgresql == []
  {
  }

  /** A concrete plan that removes the block: the source's guard holds, and
      there is no first block to apply. */
  lemma RemovedBlockExample()
    ensures var pg := Postgresql("postgres://db", 0, 0, true, "", "");
      var prior := BackendConfig("postgresql", "pg", "Managed by Terraform", "", "", [pg]);
      var planned := prior.(postgresql := []);
      && PostgresqlChangedAsWritten(prior, planned)
      && |planned.postgresql| == 0
      && !PostgresqlChanged(prior, planned)
  {
  }

  // ---------------------------------------------------------------------------
  // Delete

  /** Delete makes one call, an unmount of exactly the id, returns its error if
      any, and leaves the resource's data as it was. A successful delete leaves
      nothing mounted at the id. */
  lemma DeleteUnmountsId(o: Oracle, s: Store, st: BackendState)
    requires o.clientError.None?
    ensures var out := DeleteOutcome(o, s, st);
      && out.store.log == s.log + [Unmount(st.id)]
      && out.state == st
      && (out.err.Some? <==> |s.log| in o.faults)
      && (out.err.None? ==> MountKey(st.id) !in out.store.mounts)
  {
  }
}

=== FILE: backend_resource.dfy ===
/** The `vault_secret_backend` resource as imperative code: an object holding the
    resource's id and attributes, whose operations call the Vault client and
    update them step by step. Every operation is proved to do what the matching
    function of `BackendModel` says. */
module BackendResource {
  import opened Wrappers
  import opened VaultApi
  import opened BackendModel

  /** The loop of `resourceVaultSecretBackendRead` over the listed mounts: whether
      some mount key, less its last character, is the id. Go slices each key at
      its length minus one, so every key must be non-empty. */
  method FindMount(mounts: map<string, MountEntry>, id: string) returns (found: bool)
    requires forall k | k in mounts :: k != ""
    ensures found <==> exists key | key in mounts :: key[..|key| - 1] == id
  {
    found := false;
    var pending := mounts.Keys;
    while pending != {}
      invariant pending <= mounts.Keys
      invariant found <==> exists key | key in mounts && key !in pending :: key[..|key| - 1] == id
      decreases |pending|
    {
      var mountPoint :| mountPoint in pending;
      if mountPoint[..|mountPoint| - 1] == id {
        found := true;
      }
      pending := pending - {mountPoint};
    }
  }

  /** One `vault_secret_backend` resource. */
  class SecretBackend {
    var id: string
    var config: BackendConfig

    function State(): BackendState
      reads this
    {
      BackendState(id, config)
    }

    constructor (config: BackendConfig)
      ensures State() == BackendState("", config)
    {
      id := "";
      this.config := config;
    }

    /** `resourceVaultSecretBackendConfigPostgresql` for the first block. */
    method ConfigurePostgresql(client: Client) returns (err: Option<string>)
      requires |config.postgresql| > 0
      modifies client
      ensures Effect(err, client.State()) == ConfigPostgresqlOutcome(client.oracle, old(client.State()), id, config.postgresql[0])
    {
      if client.oracle.clientError.Some? {
        return client.oracle.clientError;
      }
      var pg := config.postgresql[0];
      var connection := client.Write(id + "/config/connection", ConnectionOf(pg));
      if connection.Err? {
        return Some(connection.error);
      }
      if pg.lease != "" && pg.leaseMax != "" {
        var lease := client.Write(id + "/config/lease", Lease(pg.lease, pg.leaseMax));
        if lease.Err? {
          return Some(lease.error);
        }
      }
      err := None;
    }

    /** `resourceVaultSecretBackendRead`. */
    method Read(client: Client) returns (err: Option<string>)
      requires ValidMounts(client.State())
      modifies this, client
      ensures Outcome(err, State(), client.State()) == ReadOutcome(client.oracle, old(client.State()), old(State()))
    {
      if client.oracle.clientError.Some? {
        return client.oracle.clientError;
      }
      var mounts := client.ListMounts();
      if mounts.Err? {
        return Some("Error listing mounts: " + mounts.error);
      }
      var found := FindMount(mounts.value, id);
      if !found {
        id := "";
        return None;
      }
      var entry := client.MountConfig(id);
      if entry.Err? {
        return Some("Error checking mount config for " + Quote(id) + ": " + entry.error);
      }
      config := config.(defaultLeaseTtl := entry.value.defaultLeaseTtl, maxLeaseTtl := entry.value.maxLeaseTtl);
      err := None;
    }

    /** `resourceVaultSecretBackendCreate`. */
    method Create(client: Client) returns (err: Option<string>)
      requires ValidMounts(client.State())
      modifies this, client
      ensures Outcome(err, State(), client.State()) == CreateOutcome(client.oracle, old(client.State()), old(State()))
    {
      if client.oracle.clientError.Some? {
        return client.oracle.clientError;
      }
      var path := config.path;
      if path == "" {
        path := config.typ;
      }
      var mounted := client.Mount(path, MountInputOf(config));
      if mounted.Err? {
        return Some("Error creating secret backend " + Quote(path) + ": " + mounted.error);
      }
      id := path;
      config := config.(path := path);
      if |config.postgresql| > 0 {
        err := ConfigurePostgresql(client);
        if err.Some? {
          return;
        }
      }
      err := Read(client);
    }

    /** `resourceVaultSecretBackendUpdate`, towards the plan `planned`. */
    method Update(client: Client, planned: BackendConfig) returns (err: Option<string>)
      modifies this, client
      ensures Outcome(err, State(), client.State()) == UpdateOutcome(client.oracle, old(client.State()), old(State()), planned)
    {
      var prior := config;
      config := planned;
      if client.oracle.clientError.Some? {
        return client.oracle.clientError;
      }
      if TtlChanged(prior, planned) {
        var tuned := client.TuneMount(id, planned.defaultLeaseTtl, planned.maxLeaseTtl);
        if tuned.Err? {
          return Some("Error while tuning secret backend " + Quote(id) + ": " + tuned.error);
        }
      }
      if prior.path != planned.path {
        var moved := client.Remount(prior.path, planned.path);
        if moved.Err? {
          return Some("Error while remounting " + Quote(id) + ": " + moved.error);
        }
        id := planned.path;
      }
      if PostgresqlChanged(prior, planned) {
        err := ConfigurePostgresql(client);
        return;
      }
      err := None;
    }

    /** `resourceVaultSecretBackendDelete`. */
    method Delete(client: Client) returns (err: Option<string>)
      modifies client
      ensures Outcome(err, State(), client.State()) == DeleteOutcome(client.oracle, old(client.State()), State())
    {
      if client.oracle.clientError.Some? {
        return client.oracle.clientError;
      }
      var unmounted := client.Unmount(id);
      if unmounted.Err? {
        return Some("Error deleting secret backend " + Quote(id) + ": " + unmounted.error);
      }
      err := None;
    }
  }
}

=== FILE: init_model.dfy ===
/** The init-and-unseal workflow of the `vaultinit` resource as functions on values.

    The outside world is a `World`: the Vault nodes the workflow can reach,
    keyed by address, and the log of every call it makes (to a node or to the
    local file system). Whatever the nodes' state does not decide comes from an
    `Oracle`: which calls fail in transport, what a node generates on Init,
    whether the key file can be written, and the timing of both deadlines.
    Each remote call is one `...Step` function; `CreateOutcome` strings them
    together exactly as `resourceInitCreate` does. */
module InitModel {
  import opened Wrappers
  import opened Strings

  /** What the workflow can observe of one Vault node. `keysNeeded` is how many
      more unseal keys the node wants before it unseals. */
  datatype Node = Node(initialized: bool, sealed: bool, keysNeeded: nat)

  /** The body of `sys/init`. */
  datatype InitRequest = InitRequest(secretShares: int, secretThreshold: int, pgpKeys: seq<string>)

  /** What a node answers to Init: the root token and the unseal keys. */
  datatype InitResponse = InitResponse(rootToken: string, keys: seq<string>)

  /** One call the workflow makes to the outside world. */
  datatype Call =
    | InitStatus(addr: string)
    | Init(addr: string, request: InitRequest)
    | WriteFile(path: string, content: string)
    | SealStatus(addr: string)
    | Unseal(addr: string, key: string)

  datatype World = World(nodes: map<string, Node>, log: seq<Call>)

  /** The text of a fresh version 4 UUID: never empty. */
  type Uuid = id: string | id != "" witness "0"

  /** The answers of the outside world that node state does not decide. */
  datatype Oracle = Oracle(
    faults: map<nat, string>,     // transport error of the call at this position of the log
    generated: InitResponse,      // what the target node generates on Init
    writeError: Option<string>,   // outcome of writing the unseal key file
    timeoutError: Option<string>, // outcome of parsing `response_timeout`
    pollAttempts: nat,            // status attempts that start before the response timeout fires
    readyDelays: map<nat, nat>,   // seconds beyond the 10 s wait that ready tick i takes
    newId: Uuid)                  // the uuid the resource id is set to

  /** The resource's configuration, as `d.Get` reads it. */
  datatype Config = Config(
    instances: seq<string>,
    secretShares: int,
    secretThreshold: int,
    pgpKeys: seq<string>,
    keysFile: string,
    waitForReady: bool,
    address: string)

  /** The resource's stored state: `d.Id()` and the computed `root_token`. */
  datatype Resource = Resource(id: string, rootToken: string)

  /** The errors `resourceInitCreate` returns, each with its Go message. */
  datatype InitError =
    | StatusCheckFailed(cause: string)
    | AlreadyInitialized
    | InitFailed(cause: string)
    | KeyWriteFailed(cause: string, keys: string)
    | SealStatusFailed(cause: string)
    | UnsealFailed(cause: string)
    | ReadyNeedsAddress
    | ReadyTimedOut(lastProbeError: Option<string>)
  {
    function Message(): string
    {
      match this
      case StatusCheckFailed(c) => "error: failed to check vault status: " + c
      case AlreadyInitialized => "error: vault is already initialized"
      case InitFailed(c) => "error: failed to  initialize vault: " + c
      case KeyWriteFailed(c, k) => "failed to write unseal keys: error was: " + c + ". keys are: " + k + "."
      case SealStatusFailed(c) => "error: failed to check vault status: " + c
      case UnsealFailed(c) => c
      case ReadyNeedsAddress => "wait_for_ready requires address to wait for"
      case ReadyTimedOut(None) => "error: failed to check vault status"
      case ReadyTimedOut(Some(c)) => "error: failed to check vault status: " + c
    }
  }

  /** The answer to one call and the world after it. */
  datatype Step<T> = Step(result: T, after: World)

  /** What the whole workflow returns and leaves behind. */
  datatype Outcome = Outcome(err: Option<InitError>, resource: Resource, world: World)

  /** The seconds the ready wait sleeps before each probe, and its deadline. */
  const ReadyInterval: nat := 10
  const ReadyDeadline: nat := 600

  /** The transport error of a call to `addr` made at log position `at`, if any.
      An address with no node behind it never answers. */
  function Fault(o: Oracle, nodes: map<string, Node>, addr: string, at: nat): Option<string>
  {
    if at in o.faults then Some(o.faults[at])
    else if addr !in nodes then Some("no Vault node at " + addr)
    else None
  }

  function InitStatusStep(o: Oracle, w: World, addr: string): Step<Result<bool>>
  {
    var after := w.(log := w.log + [InitStatus(addr)]);
    match Fault(o, w.nodes, addr, |w.log|)
    case Some(e) => Step(Err(e), after)
    case None => Step(Ok(w.nodes[addr].initialized), after)
  }

  function InitStep(o: Oracle, w: World, addr: string, req: InitRequest): Step<Result<InitResponse>>
  {
    var log := w.log + [Init(addr, req)];
    match Fault(o, w.nodes, addr, |w.log|)
    case Some(e) => Step(Err(e), w.(log := log))
    case None => Step(Ok(o.generated), World(w.nodes[addr := w.nodes[addr].(initialized := true)], log))
  }

  function WriteFileStep(o: Oracle, w: World, path: string, content: string): Step<Option<string>>
  {
    Step(o.writeError, w.(log := w.log + [WriteFile(path, content)]))
  }

  /** Answers whether the node is sealed. */
  function SealStatusStep(o: Oracle, w: World, addr: string): Step<Result<bool>>
  {
    var after := w.(log := w.log + [SealStatus(addr)]);
    match Fault(o, w.nodes, addr, |w.log|)
    case Some(e) => Step(Err(e), after)
    case None => Step(Ok(w.nodes[addr].sealed), after)
  }

  /** How many keys a node still takes before it unseals (at least one while sealed). */
  function Need(n: Node): nat
  {
    if n.keysNeeded == 0 then 1 else n.keysNeeded
  }

  /** A node after it has been given one more unseal key. */
  function AfterKey(n: Node): Node
  {
    if !n.sealed then n
    else if Need(n) == 1 then n.(sealed := false, keysNeeded := 0)
    else n.(keysNeeded := Need(n) - 1)
  }

  /** Submits one key; answers whether the node is still sealed. */
  function UnsealStep(o: Oracle, w: World, addr: string, key: string): Step<Result<bool>>
  {
    var log := w.log + [Unseal(addr, key)];
    match Fault(o, w.nodes, addr, |w.log|)
    case Some(e) => Step(Err(e), w.(log := log))
    case None =>
      var n := AfterKey(w.nodes[addr]);
      Step(Ok(n.sealed), World(w.nodes[addr := n], log))
  }

  /** The status poll: asks `addr` for its init status until it answers, or until
      the response timeout fires, which happens before attempt `attempts + 1`.
      A timeout yields the last transport error seen, or "unexpected error". */
  function Poll(o: Oracle, w: World, addr: string, attempts: nat, lastErr: Option<string>): Step<Result<bool>>
    decreases attempts
  {
    if attempts == 0 then
      Step(Err(if lastErr.Some? then lastErr.value else "unexpected error"), w)
    else
      var s := InitStatusStep(o, w, addr);
      if s.result.Ok? then s else Poll(o, s.after, addr, attempts - 1, Some(s.result.error))
  }

  /** Submits `keys` in order to the sealed node `addr`, stopping after the first
      answer that reports it unsealed; running out of keys is not an error. */
  function UnsealKeys(o: Oracle, w: World, addr: string, keys: seq<string>): Step<Option<string>>
    decreases |keys|
  {
    if keys == [] then Step(None, w)
    else
      var s := UnsealStep(o, w, addr, keys[0]);
      match s.result
      case Err(e) => Step(Some(e), s.after)
      case Ok(sealed) => if sealed then UnsealKeys(o, s.after, addr, keys[1..]) else Step(None, s.after)
  }

  /** Visits every instance in order: asks whether it is sealed and, if it is,
      gives it keys. The first error ends the whole walk. */
  function UnsealInstances(o: Oracle, w: World, instances: seq<string>, keys: seq<string>): Step<Option<InitError>>
    decreases |instances|
  {
    if instances == [] then Step(None, w)
    else
      var addr := instances[0];
      var s := SealStatusStep(o, w, addr);
      match s.result
      case Err(e) => Step(Some(SealStatusFailed(e)), s.after)
      case Ok(sealed) =>
        if !sealed then UnsealInstances(o, s.after, instances[1..], keys)
        else
          var u := UnsealKeys(o, s.after, addr, keys);
          if u.result.Some? then Step(Some(UnsealFailed(u.result.value)), u.after)
          else UnsealInstances(o, u.after, instances[1..], keys)
  }

  /** The extra seconds ready tick `tick` takes beyond its 10 s wait. */
  function Delay(delays: map<nat, nat>, tick: nat): nat
  {
    if tick in delays then delays[tick] else 0
  }

  /** The ready wait, `elapsed` seconds after it started: wait one interval, give
      up if the deadline has passed, otherwise probe `addr` and stop on success. */
  function WaitReady(o: Oracle, w: World, addr: string, tick: nat, elapsed: nat, lastErr: Option<string>): Step<Option<InitError>>
    requires elapsed <= ReadyDeadline
    decreases ReadyDeadline - elapsed
  {
    var now := elapsed + ReadyInterval + Delay(o.readyDelays, tick);
    if now > ReadyDeadline then Step(Some(ReadyTimedOut(lastErr)), w)
    else
      var s := SealStatusStep(o, w, addr);
      if s.result.Ok? then Step(None, s.after)
      else WaitReady(o, s.after, addr, tick + 1, now, Some(s.result.error))
  }

  function RequestOf(cfg: Config): InitRequest
  {
    InitRequest(cfg.secretShares, cfg.secretThreshold, cfg.pgpKeys)
  }

  /** `resourceInitCreate`: the status check against `instances[0]`, then the rest. */
  function CreateOutcome(cfg: Config, o: Oracle, w: World, d: Resource): Outcome
    requires |cfg.instances| > 0
  {
    if o.timeoutError.Some? then Outcome(Some(StatusCheckFailed(o.timeoutError.value)), d, w)
    else
      var s := Poll(o, w, cfg.instances[0], o.pollAttempts, None);
      match s.result
      case Err(e) => Outcome(Some(StatusCheckFailed(e)), d, s.after)
      case Ok(initialized) =>
        if initialized then Outcome(Some(AlreadyInitialized), d, s.after)
        else InitializeAndUnseal(cfg, o, s.after, d)
  }

  /** Init, the root token, the key file and the unseal walk. */
  function InitializeAndUnseal(cfg: Config, o: Oracle, w: World, d: Resource): Outcome
    requires |cfg.instances| > 0
  {
    var s := InitStep(o, w, cfg.instances[0], RequestOf(cfg));
    match s.result
    case Err(e) => Outcome(Some(InitFailed(e)), d, s.after)
    case Ok(resp) =>
      var withToken := d.(rootToken := resp.rootToken);
      var keys := Join(resp.keys, '\n');
      var f := WriteFileStep(o, s.after, cfg.keysFile, keys);
      if f.result.Some? then Outcome(Some(KeyWriteFailed(f.result.value, keys)), withToken, f.after)
      else
        var u := UnsealInstances(o, f.after, cfg.instances, resp.keys);
        if u.result.Some? then Outcome(u.result, withToken, u.after)
        else FinishCreate(cfg, o, u.after, withToken.(id := o.newId))
  }

  /** The optional ready wait, after the id has been set. */
  function FinishCreate(cfg: Config, o: Oracle, w: World, d: Resource): Outcome
  {
    if !cfg.waitForReady then Outcome(None, d, w)
    else if cfg.address == "" then Outcome(Some(ReadyNeedsAddress), d, w)
    else
      var s := WaitReady(o, w, cfg.address, 0, 0, None);
      Outcome(s.result, d, s.after)
  }
}

=== FILE: init_properties.dfy ===
/** What `resourceInitCreate` promises, proved about `InitModel`: which calls
    it makes, in what order, and when it stops. */
module InitProperties {
  import opened Wrappers
  import opened Strings
  import opened InitModel

  /** The Unseal calls that submit `keys` to `addr`, in order. */
  function UnsealCalls(addr: string, keys: seq<string>): (calls: seq<Call>)
    ensures |calls| == |keys|
    ensures forall i | 0 <= i < |keys| :: calls[i] == Unseal(addr, keys[i])
  {
    seq(|keys|, i requires 0 <= i < |keys| => Unseal(addr, keys[i]))
  }

  function Min(a: nat, b: nat): nat
  {
    if a <= b then a else b
  }

  /** A sealed node after `k` keys have been accepted, in closed form. */
  function Progressed(n: Node, k: nat): Node
  {
    if k == 0 then n
    else if k >= Need(n) then n.(sealed := false, keysNeeded := 0)
    else n.(keysNeeded := Need(n) - k)
  }

  // ---------------------------------------------------------------------------
  // The status poll

  /** The poll only asks `addr` for its init status, at most `attempts` times.
      Every attempt but the last failed in transport; the first answer wins and
      carries the node's own flag; a timeout makes exactly `attempts` calls and
      returns the last transport error, or the earlier error / "unexpected error"
      when no attempt was made at all. */
  lemma {:induction false} PollCalls(o: Oracle, w: World, addr: string, attempts: nat, lastErr: Option<string>)
    ensures var s := Poll(o, w, addr, attempts, lastErr);
      && s.after.nodes == w.nodes
      && |w.log| <= |s.after.log| <= |w.log| + attempts
      && s.after.log[..|w.log|] == w.log
      && (forall i | |w.log| <= i < |s.after.log| :: s.after.log[i] == InitStatus(addr))
      && (forall i | |w.log| <= i < |s.after.log| - 1 :: Fault(o, w.nodes, addr, i).Some?)
      && (s.result.Ok? ==>
            && |w.log| < |s.after.log|
            && Fault(o, w.nodes, addr, |s.after.log| - 1).None?
            && s.result.value == w.nodes[addr].initialized)
      && (s.result.Err? ==>
            && |s.after.log| == |w.log| + attempts
            && (attempts == 0 ==> s.result.error == (if lastErr.Some? then lastErr.value else "unexpected error"))
            && (attempts > 0 ==> Fault(o, w.nodes, addr, |s.after.log| - 1) == Some(s.result.error)))
    decreases attempts
  {
    if attempts > 0 {
      var first := InitStatusStep(o, w, addr);
      if first.result.Err? {
        PollCalls(o, first.after, addr, attempts - 1, Some(first.result.error));
      }
    }
  }

  // ---------------------------------------------------------------------------
  // Unsealing one node

  /** A sealed node receives a prefix of `keys`, in their original order. Every
      submission but the last went through. Without an error, exactly as many keys
      are submitted as the node needs, or all of them if there are too few: the
      walk stops right after the node reports unsealed, and running out of keys
      while it is still sealed is not an error. An error ends the walk at once. */
  lemma UnsealKeysCalls(o: Oracle, w: World, addr: string, keys: seq<string>)
    requires addr in w.nodes && w.nodes[addr].sealed
    ensures var s := UnsealKeys(o, w, addr, keys);
      var n := w.nodes[addr];
      && |w.log| <= |s.after.log| <= |w.log| + |keys|
      && s.after.log == w.log + UnsealCalls(addr, keys[..|s.after.log| - |w.log|])
      && (forall i | |w.log| <= i < |s.after.log| - 1 :: i !in o.faults)
      && (s.result.None? ==>
            && |s.after.log| - |w.log| == Min(Need(n), |keys|)
            && s.after.nodes == w.nodes[addr := Progressed(n, |s.after.log| - |w.log|)])
      && (s.result.Some? ==>
            && 0 < |s.after.log| - |w.log| <= Need(n)
            && |s.after.log| - 1 in o.faults
            && s.result.value == o.faults[|s.after.log| - 1]
            && s.after.nodes == w.nodes[addr := Progressed(n, |s.after.log| - |w.log| - 1)])
  {
    UnsealKeysLog(o, w, addr, keys);
    UnsealKeysFaults(o, w, addr, keys);
    UnsealKeysNodes(o, w, addr, keys);
  }

  /** The log half of `UnsealKeysCalls`. */
  lemma {:induction false} UnsealKeysLog(o: Oracle, w: World, addr: string, keys: seq<string>)
    requires addr in w.nodes
    ensures var s := UnsealKeys(o, w, addr, keys);
      && |w.log| <= |s.after.log| <= |w.log| + |keys|
      && s.after.log == w.log + UnsealCalls(addr, keys[..|s.after.log| - |w.log|])
    decreases |keys|, 1
  {
    if keys != [] {
      var first := UnsealStep(o, w, addr, keys[0]);
      assert first.after.log == w.log + [Unseal(addr, keys[0])];
      if |w.log| in o.faults {
        assert UnsealKeys(o, w, addr, keys) == Step(Some(o.faults[|w.log|]), first.after);
        assert keys[..1] == [keys[0]];
      } else if !first.result.value {
        assert UnsealKeys(o, w, addr, keys) == Step(None, first.after);
        assert keys[..1] == [keys[0]];
      } else {
        UnsealKeysLogTail(o, w, addr, keys);
      }
    }
  }

  /** The recursive case of `UnsealKeysLog`: the first key went through and
      left the node sealed. */
  lemma {:induction false} UnsealKeysLogTail(o: Oracle, w: World, addr: string, keys: seq<string>)
    requires addr in w.nodes && keys != [] && |w.log| !in o.faults
    requires UnsealStep(o, w, addr, keys[0]).result == Ok(true)
    ensures var s := UnsealKeys(o, w, addr, keys);
      && |w.log| <= |s.after.log| <= |w.log| + |keys|
      && s.after.log == w.log + UnsealCalls(addr, keys[..|s.after.log| - |w.log|])
    decreases |keys|, 0
  {
    var w1 := UnsealStep(o, w, addr, keys[0]).after;
    assert w1.log == w.log + [Unseal(addr, keys[0])] && addr in w1.nodes;
    UnsealKeysLog(o, w1, addr, keys[1..]);
    var s := UnsealKeys(o, w1, addr, keys[1..]);
    assert UnsealKeys(o, w, addr, keys) == s;
    var k := |s.after.log| - |w1.log|;
    var later := UnsealCalls(addr, keys[1..][..k]);
    assert s.after.log == w1.log + later;
    UnsealCallsCons(addr, keys, k);
    assert s.after.log == w.log + ([Unseal(addr, keys[0])] + later);
  }

  /** The transport errors of `UnsealKeysCalls`: every submission but the last
      went through, and an error is the one of the last submission. */
  lemma {:induction false} UnsealKeysFaults(o: Oracle, w: World, addr: string, keys: seq<string>)
    requires addr in w.nodes
    ensures var s := UnsealKeys(o, w, addr, keys);
      && |w.log| <= |s.after.log|
      && (forall i | |w.log| <= i < |s.after.log| - 1 :: i !in o.faults)
      && (s.result.Some? ==>
            && |w.log| < |s.after.log|
            && |s.after.log| - 1 in o.faults
            && s.result.value == o.faults[|s.after.log| - 1])
    decreases |keys|
  {
    if keys != [] {
      var first := UnsealStep(o, w, addr, keys[0]);
      assert |first.after.log| == |w.log| + 1 && addr in first.after.nodes;
      if |w.log| !in o.faults && first.result.value {
        UnsealKeysFaults(o, first.after, addr, keys[1..]);
        assert UnsealKeys(o, w, addr, keys) == UnsealKeys(o, first.after, addr, keys[1..]);
      }
    }
  }

  /** The node half of `UnsealKeysCalls`: how many keys the node takes and the
      state it is left in. */
  lemma {:induction false} UnsealKeysNodes(o: Oracle, w: World, addr: string, keys: seq<string>)
    requires addr in w.nodes && w.nodes[addr].sealed
    ensures var s := UnsealKeys(o, w, addr, keys);
      var n := w.nodes[addr];
      var k := |s.after.log| - |w.log|;
      && (s.result.None? ==> k == Min(Need(n), |keys|) && s.after.nodes == w.nodes[addr := Progressed(n, k)])
      && (s.result.Some? ==> 0 < k <= Need(n) && s.after.nodes == w.nodes[addr := Progressed(n, k - 1)])
    decreases |keys|, 1
  {
    var n := w.nodes[addr];
    if keys == [] || |w.log| in o.faults {
      assert w.nodes[addr := n] == w.nodes;
    } else {
      var n1 := AfterKey(n);
      var first := UnsealStep(o, w, addr, keys[0]);
      assert first.result == Ok(n1.sealed) && first.after.nodes == w.nodes[addr := n1];
      if n1.sealed {
        UnsealKeysNodesTail(o, w, addr, keys);
      } else {
        assert Progressed(n, 1) == n1;
      }
    }
  }

  /** The recursive case of `UnsealKeysNodes`: the first key went through and
      left the node sealed. */
  lemma {:induction false} UnsealKeysNodesTail(o: Oracle, w: World, addr: string, keys: seq<string>)
    requires addr in w.nodes && w.nodes[addr].sealed && keys != [] && |w.log| !in o.faults
    requires AfterKey(w.nodes[addr]).sealed
    ensures var s := UnsealKeys(o, w, addr, keys);
      var n := w.nodes[addr];
      var k := |s.after.log| - |w.log|;
      && (s.result.None? ==> k == Min(Need(n), |keys|) && s.after.nodes == w.nodes[addr := Progressed(n, k)])
      && (s.result.Some? ==> 0 < k <= Need(n) && s.after.nodes == w.nodes[addr := Progressed(n, k - 1)])
    decreases |keys|, 0
  {
    var n := w.nodes[addr];
    var n1 := AfterKey(n);
    var w1 := UnsealStep(o, w, addr, keys[0]).after;
    assert w1.nodes == w.nodes[addr := n1] && |w1.log| == |w.log| + 1;
    UnsealKeysNodes(o, w1, addr, keys[1..]);
    var s := UnsealKeys(o, w1, addr, keys[1..]);
    assert UnsealKeys(o, w, addr, keys) == s;
    var k := |s.after.log| - |w1.log|;
    if s.result.None? {
      ProgressedAfterKey(n, k);
      assert w1.nodes[addr := Progressed(n1, k)] == w.nodes[addr := Progressed(n, k + 1)];
    } else {
      ProgressedAfterKey(n, k - 1);
      assert w1.nodes[addr := Progressed(n1, k - 1)] == w.nodes[addr := Progressed(n, k)];
    }
  }

  lemma UnsealCallsCons(addr: string, keys: seq<string>, k: nat)
    requires k < |keys|
    ensures UnsealCalls(addr, keys[..k + 1]) == [Unseal(addr, keys[0])] + UnsealCalls(addr, keys[1..][..k])
  {
    assert keys[..k + 1] == [keys[0]] + keys[1..][..k];
  }

  /** A key that leaves a node sealed counts as one of its accepted keys. */
  lemma ProgressedAfterKey(n: Node, k: nat)
    requires n.sealed && AfterKey(n).sealed
    ensures Need(AfterKey(n)) == Need(n) - 1
    ensures Progressed(AfterKey(n), k) == Progressed(n, k + 1)
  {
  }

  // ---------------------------------------------------------------------------
  // The unseal walk over all instances

  /** The calls a step from `before` to `after` added to the log. */
  function Added(before: World, after: World): seq<Call>
  {
    if |before.log| <= |after.log| then after.log[|before.log|..] else []
  }

  /** The addresses whose seal status `calls` asks for, in order. */
  function Visited(calls: seq<Call>): seq<string>
  {
    if calls == [] then []
    else (if calls[0].SealStatus? then [calls[0].addr] else []) + Visited(calls[1..])
  }

  lemma {:induction false} VisitedConcat(a: seq<Call>, b: seq<Call>)
    ensures Visited(a + b) == Visited(a) + Visited(b)
    decreases |a|
  {
    if a != [] {
      assert (a + b)[1..] == a[1..] + b;
      VisitedConcat(a[1..], b);
    } else {
      assert a + b == b;
    }
  }

  lemma {:induction false} VisitedUnsealCalls(addr: string, keys: seq<string>)
    ensures Visited(UnsealCalls(addr, keys)) == []
    decreases |keys|
  {
    if keys != [] {
      assert UnsealCalls(addr, keys)[1..] == UnsealCalls(addr, keys[1..]);
      VisitedUnsealCalls(addr, keys[1..]);
    }
  }

  /** What the unseal walk promises about the calls it adds: only SealStatus and
      Unseal calls, and only to instances it has visited; it visits a prefix of
      `instances` in their original order; without an error it visits all of
      them; with an error it stops at the instance it was working on, so no
      later instance is contacted. */
  ghost predicate WalkedInOrder(instances: seq<string>, added: seq<Call>, result: Option<InitError>)
  {
    var visited := Visited(added);
    && (forall c | c in added :: (c.SealStatus? || c.Unseal?) && c.addr in visited)
    && |visited| <= |instances|
    && visited == instances[..|visited|]
    && (result.None? ==> visited == instances)
    && (result.Some? ==>
          && visited != [] && added != []
          && (result.value.SealStatusFailed? || result.value.UnsealFailed?)
          && added[|added| - 1].addr == visited[|visited| - 1])
  }

  lemma {:induction false} UnsealInstancesCalls(o: Oracle, w: World, instances: seq<string>, keys: seq<string>)
    ensures var s := UnsealInstances(o, w, instances, keys);
      && s.after.log == w.log + Added(w, s.after)
      && WalkedInOrder(instances, Added(w, s.after), s.result)
    decreases |instances|, 1
  {
    if instances != [] {
      var addr := instances[0];
      var s1 := SealStatusStep(o, w, addr);
      assert Added(w, s1.after) == [SealStatus(addr)];
      assert Visited([SealStatus(addr)]) == [addr];
      match s1.result
      case Err(e) =>
      case Ok(sealed) =>
        if !sealed {
          UnsealInstancesCalls(o, s1.after, instances[1..], keys);
          var s := UnsealInstances(o, s1.after, instances[1..], keys);
          WalkedAfterVisit(instances, [SealStatus(addr)], Added(s1.after, s.after), s.result);
          assert Added(w, s.after) == [SealStatus(addr)] + Added(s1.after, s.after);
        } else {
          UnsealSealedInstance(o, w, instances, keys);
        }
    }
  }

  /** The keys given to one sealed node, seen from the walk: Unseal calls to
      that node only, at least one when the node failed. */
  lemma KeysToOneNode(o: Oracle, w: World, addr: string, keys: seq<string>)
    requires addr in w.nodes && w.nodes[addr].sealed
    ensures var u := UnsealKeys(o, w, addr, keys);
      && u.after.log == w.log + Added(w, u.after)
      && Visited(Added(w, u.after)) == []
      && (forall c | c in Added(w, u.after) :: c.Unseal? && c.addr == addr)
      && (u.result.Some? ==> Added(w, u.after) != [])
  {
    UnsealKeysCalls(o, w, addr, keys);
    var u := UnsealKeys(o, w, addr, keys);
    var k := |u.after.log| - |w.log|;
    assert Added(w, u.after) == UnsealCalls(addr, keys[..k]);
    VisitedUnsealCalls(addr, keys[..k]);
  }

  /** The case of `UnsealInstancesCalls` where `instances[0]` reports sealed. */
  lemma {:induction false} UnsealSealedInstance(o: Oracle, w: World, instances: seq<string>, keys: seq<string>)
    requires instances != []
    requires SealStatusStep(o, w, instances[0]).result == Ok(true)
    ensures var s := UnsealInstances(o, w, instances, keys);
      && s.after.log == w.log + Added(w, s.after)
      && WalkedInOrder(instances, Added(w, s.after), s.result)
    decreases |instances|, 0
  {
    var addr := instances[0];
    var s1 := SealStatusStep(o, w, addr);
    var u := UnsealKeys(o, s1.after, addr, keys);
    SealedVisit(o, w, addr, keys);
    if u.result.None? {
      var s := UnsealInstances(o, u.after, instances[1..], keys);
      assert UnsealInstances(o, w, instances, keys) == s;
      UnsealInstancesCalls(o, u.after, instances[1..], keys);
      AddedTwice(w, u.after, s.after);
      WalkedAfterVisit(instances, Added(w, u.after), Added(u.after, s.after), s.result);
    } else {
      assert UnsealInstances(o, w, instances, keys) == Step(Some(UnsealFailed(u.result.value)), u.after);
      FailedVisit(instances, Added(w, u.after), u.result.value);
    }
  }

  /** Calls added in two stretches are the calls of the first, then of the second. */
  lemma AddedTwice(a: World, b: World, c: World)
    requires b.log == a.log + Added(a, b) && c.log == b.log + Added(b, c)
    ensures c.log == a.log + Added(a, c)
    ensures Added(a, c) == Added(a, b) + Added(b, c)
  {
    assert c.log == a.log + (Added(a, b) + Added(b, c));
  }

  /** One visit to a sealed node: its SealStatus call, then the keys it was given. */
  lemma SealedVisit(o: Oracle, w: World, addr: string, keys: seq<string>)
    requires SealStatusStep(o, w, addr).result == Ok(true)
    ensures var u := UnsealKeys(o, SealStatusStep(o, w, addr).after, addr, keys);
      var visit := Added(w, u.after);
      && u.after.log == w.log + visit
      && Visited(visit) == [addr]
      && visit != []
      && (forall c | c in visit :: (c.SealStatus? || c.Unseal?) && c.addr == addr)
  {
    var s1 := SealStatusStep(o, w, addr);
    assert addr in w.nodes && s1.after.nodes == w.nodes;
    KeysToOneNode(o, s1.after, addr, keys);
    var u := UnsealKeys(o, s1.after, addr, keys);
    var used := Added(s1.after, u.after);
    var visit := [SealStatus(addr)] + used;
    assert Added(w, u.after) == visit;
    VisitedConcat([SealStatus(addr)], used);
    assert Visited([SealStatus(addr)]) == [addr];
  }

  /** A walk that failed during its first visit. */
  lemma FailedVisit(instances: seq<string>, visit: seq<Call>, cause: string)
    requires instances != []
    requires Visited(visit) == [instances[0]]
    requires visit != []
    requires forall c | c in visit :: (c.SealStatus? || c.Unseal?) && c.addr == instances[0]
    ensures WalkedInOrder(instances, visit, Some(UnsealFailed(cause)))
  {
    assert instances[..1] == [instances[0]];
    assert visit[|visit| - 1] in visit;
  }

  /** One visit to `instances[0]` followed by a walk over the rest is a walk. */
  lemma WalkedAfterVisit(instances: seq<string>, visit: seq<Call>, rest: seq<Call>, result: Option<InitError>)
    requires instances != []
    requires Visited(visit) == [instances[0]]
    requires forall c | c in visit :: (c.SealStatus? || c.Unseal?) && c.addr == instances[0]
    requires WalkedInOrder(instances[1..], rest, result)
    ensures WalkedInOrder(instances, visit + rest, result)
  {
    VisitedConcat(visit, rest);
    var visited := Visited(visit + rest);
    assert visited == [instances[0]] + Visited(rest);
    assert instances[..|visited|] == [instances[0]] + instances[1..][..|Visited(rest)|];
    if result.None? {
      assert instances == [instances[0]] + instances[1..];
    }
  }

  /** The walk with no transport error from here on, as a log computed from the
      nodes' state alone: an unsealed node is asked once and gets no key; a
      sealed node gets the first keys, as many as it needs or all there are. */
  function ExpectedUnseal(nodes: map<string, Node>, instances: seq<string>, keys: seq<string>): seq<Call>
    requires forall a | a in instances :: a in nodes
    decreases |instances|
  {
    if instances == [] then []
    else
      var a := instances[0];
      var n := nodes[a];
      if !n.sealed then [SealStatus(a)] + ExpectedUnseal(nodes, instances[1..], keys)
      else
        var used := Min(Need(n), |keys|);
        [SealStatus(a)] + UnsealCalls(a, keys[..used]) + ExpectedUnseal(nodes[a := Progressed(n, used)], instances[1..], keys)
  }

  lemma {:induction false} UnsealInstancesNoFaults(o: Oracle, w: World, instances: seq<string>, keys: seq<string>)
    requires forall a | a in instances :: a in w.nodes
    requires forall i | i in o.faults :: i < |w.log|
    ensures var s := UnsealInstances(o, w, instances, keys);
      && s.result.None?
      && s.after.log == w.log + ExpectedUnseal(w.nodes, instances, keys)
      && s.after.nodes.Keys == w.nodes.Keys
    decreases |instances|
  {
    if instances != [] {
      var v := NoFaultVisit(o, w, instances, keys);
      assert forall a | a in instances[1..] :: a in instances;
      UnsealInstancesNoFaults(o, v, instances[1..], keys);
      assert w.log + ExpectedUnseal(w.nodes, instances, keys)
          == v.log + ExpectedUnseal(v.nodes, instances[1..], keys);
    }
  }

  /** The visit to the first instance when no transport error happens: the walk
      goes on from the world `v` it leaves behind. */
  lemma NoFaultVisit(o: Oracle, w: World, instances: seq<string>, keys: seq<string>) returns (v: World)
    requires instances != [] && forall a | a in instances :: a in w.nodes
    requires forall i | i in o.faults :: i < |w.log|
    ensures UnsealInstances(o, w, instances, keys) == UnsealInstances(o, v, instances[1..], keys)
    ensures forall i | i in o.faults :: i < |v.log|
    ensures v.nodes.Keys == w.nodes.Keys
    ensures v.log + ExpectedUnseal(v.nodes, instances[1..], keys) == w.log + ExpectedUnseal(w.nodes, instances, keys)
  {
    var addr := instances[0];
    var n := w.nodes[addr];
    if !n.sealed {
      v := UnsealedNoFaultVisit(o, w, instances, keys);
    } else {
      v := SealedNoFaultVisit(o, w, instances, keys);
    }
  }

  /** `NoFaultVisit` when the first instance reports unsealed. */
  lemma UnsealedNoFaultVisit(o: Oracle, w: World, instances: seq<string>, keys: seq<string>) returns (v: World)
    requires instances != [] && forall a | a in instances :: a in w.nodes
    requires forall i | i in o.faults :: i < |w.log|
    requires !w.nodes[instances[0]].sealed
    ensures UnsealInstances(o, w, instances, keys) == UnsealInstances(o, v, instances[1..], keys)
    ensures forall i | i in o.faults :: i < |v.log|
    ensures v.nodes.Keys == w.nodes.Keys
    ensures v.log + ExpectedUnseal(v.nodes, instances[1..], keys) == w.log + ExpectedUnseal(w.nodes, instances, keys)
  {
    var addr := instances[0];
    var s1 := SealStatusStep(o, w, addr);
    assert s1.result == Ok(false) && s1.after.log == w.log + [SealStatus(addr)] && s1.after.nodes == w.nodes;
    v := s1.after;
    var rest := ExpectedUnseal(v.nodes, instances[1..], keys);
    assert ExpectedUnseal(w.nodes, instances, keys) == [SealStatus(addr)] + rest;
    assert v.log + rest == w.log + ([SealStatus(addr)] + rest);
  }

  /** `NoFaultVisit` when the first instance reports sealed. */
  lemma SealedNoFaultVisit(o: Oracle, w: World, instances: seq<string>, keys: seq<string>) returns (v: World)
    requires instances != [] && forall a | a in instances :: a in w.nodes
    requires forall i | i in o.faults :: i < |w.log|
    requires w.nodes[instances[0]].sealed
    ensures UnsealInstances(o, w, instances, keys) == UnsealInstances(o, v, instances[1..], keys)
    ensures forall i | i in o.faults :: i < |v.log|
    ensures v.nodes.Keys == w.nodes.Keys
    ensures v.log + ExpectedUnseal(v.nodes, instances[1..], keys) == w.log + ExpectedUnseal(w.nodes, instances, keys)
  {
    var addr := instances[0];
    var n := w.nodes[addr];
    var used := Min(Need(n), |keys|);
    var s1 := SealStatusStep(o, w, addr);
    assert s1.result == Ok(true) && s1.after.log == w.log + [SealStatus(addr)] && s1.after.nodes == w.nodes;
    SealedKeysNoFaults(o, s1.after, addr, keys);
    v := UnsealKeys(o, s1.after, addr, keys).after;
    var calls := UnsealCalls(addr, keys[..used]);
    var rest := ExpectedUnseal(v.nodes, instances[1..], keys);
    assert ExpectedUnseal(w.nodes, instances, keys) == [SealStatus(addr)] + calls + rest;
    Associative3(w.log, [SealStatus(addr)], calls, rest);
  }

  /** Whatever the transport does, the walk's calls are a prefix of the
      fault-free walk computed from the nodes' state, and all of it when the
      walk succeeds: a fault only cuts the walk short. So a node that reports
      unsealed never gets a key, and keys go only to the node being visited,
      in order, in a run that later fails as much as in one that does not. */
  lemma {:induction false} UnsealInstancesPrefix(o: Oracle, w: World, instances: seq<string>, keys: seq<string>)
    requires forall a | a in instances :: a in w.nodes
    ensures var s := UnsealInstances(o, w, instances, keys);
      var expected := ExpectedUnseal(w.nodes, instances, keys);
      && s.after.log == w.log + Added(w, s.after)
      && Added(w, s.after) <= expected
      && (s.result.None? ==> Added(w, s.after) == expected)
    decreases |instances|, 1
  {
    if instances != [] {
      var addr := instances[0];
      var s1 := SealStatusStep(o, w, addr);
      assert s1.after.log == w.log + [SealStatus(addr)] && s1.after.nodes == w.nodes;
      assert forall a | a in instances[1..] :: a in instances;
      if s1.result.Err? {
        assert Added(w, s1.after) == [SealStatus(addr)];
        assert ExpectedUnseal(w.nodes, instances, keys)[0] == SealStatus(addr);
      } else if !s1.result.value {
        UnsealInstancesPrefix(o, s1.after, instances[1..], keys);
        var s := UnsealInstances(o, s1.after, instances[1..], keys);
        assert UnsealInstances(o, w, instances, keys) == s;
        assert ExpectedUnseal(w.nodes, instances, keys) == [SealStatus(addr)] + ExpectedUnseal(w.nodes, instances[1..], keys);
        assert Added(w, s.after) == [SealStatus(addr)] + Added(s1.after, s.after);
      } else {
        UnsealSealedPrefix(o, w, instances, keys);
      }
    }
  }

  /** The case of `UnsealInstancesPrefix` where `instances[0]` reports sealed. */
  lemma {:induction false} UnsealSealedPrefix(o: Oracle, w: World, instances: seq<string>, keys: seq<string>)
    requires instances != [] && forall a | a in instances :: a in w.nodes
    requires SealStatusStep(o, w, instances[0]).result == Ok(true)
    ensures var s := UnsealInstances(o, w, instances, keys);
      var expected := ExpectedUnseal(w.nodes, instances, keys);
      && s.after.log == w.log + Added(w, s.after)
      && Added(w, s.after) <= expected
      && (s.result.None? ==> Added(w, s.after) == expected)
    decreases |instances|, 0
  {
    var addr := instances[0];
    var n := w.nodes[addr];
    var used := Min(Need(n), |keys|);
    var visit := [SealStatus(addr)] + UnsealCalls(addr, keys[..used]);
    var u := UnsealKeys(o, SealStatusStep(o, w, addr).after, addr, keys);
    SealedVisitLog(o, w, addr, keys);
    SealedVisitNodes(o, w, addr, keys);
    SealedVisitPrefix(o, w, addr, keys);
    var rest := ExpectedUnseal(w.nodes[addr := Progressed(n, used)], instances[1..], keys);
    assert ExpectedUnseal(w.nodes, instances, keys) == visit + rest;
    if u.result.Some? {
      assert UnsealInstances(o, w, instances, keys) == Step(Some(UnsealFailed(u.result.value)), u.after);
    } else {
      assert forall a | a in instances[1..] :: a in instances;
      UnsealInstancesPrefix(o, u.after, instances[1..], keys);
      var s := UnsealInstances(o, u.after, instances[1..], keys);
      assert UnsealInstances(o, w, instances, keys) == s;
      AddedTwice(w, u.after, s.after);
    }
  }

  /** One visit to a sealed node, whatever the transport does: a prefix of its
      fault-free visit, and all of it when no key failed. */
  lemma SealedVisitPrefix(o: Oracle, w: World, addr: string, keys: seq<string>)
    requires addr in w.nodes
    requires SealStatusStep(o, w, addr).result == Ok(true)
    ensures var n := w.nodes[addr];
      var used := Min(Need(n), |keys|);
      var visit := [SealStatus(addr)] + UnsealCalls(addr, keys[..used]);
      var u := UnsealKeys(o, SealStatusStep(o, w, addr).after, addr, keys);
      && Added(w, u.after) <= visit
      && (u.result.None? ==> Added(w, u.after) == visit)
  {
    var used := Min(Need(w.nodes[addr]), |keys|);
    var s1 := SealStatusStep(o, w, addr);
    var u := UnsealKeys(o, s1.after, addr, keys);
    SealedVisitLog(o, w, addr, keys);
    SealedVisitCount(o, w, addr, keys);
    VisitPrefix(addr, keys, |u.after.log| - |s1.after.log|, used, Added(w, u.after), u.result.Some?);
  }

  /** The Unseal calls of fewer keys, after a SealStatus call, are a prefix of
      those of more keys. */
  lemma VisitPrefix(addr: string, keys: seq<string>, k: int, used: nat, added: seq<Call>, failed: bool)
    requires 0 <= k <= used <= |keys|
    requires added == [SealStatus(addr)] + UnsealCalls(addr, keys[..k])
    requires !failed ==> k == used
    ensures added <= [SealStatus(addr)] + UnsealCalls(addr, keys[..used])
    ensures !failed ==> added == [SealStatus(addr)] + UnsealCalls(addr, keys[..used])
  {
    UnsealCallsPrefix(addr, keys, k, used);
    PrefixAfter([SealStatus(addr)], UnsealCalls(addr, keys[..k]), UnsealCalls(addr, keys[..used]));
  }

  /** How many keys one visit to a sealed node gives. */
  lemma SealedVisitCount(o: Oracle, w: World, addr: string, keys: seq<string>)
    requires addr in w.nodes
    requires SealStatusStep(o, w, addr).result == Ok(true)
    ensures var used := Min(Need(w.nodes[addr]), |keys|);
      var s1 := SealStatusStep(o, w, addr);
      var u := UnsealKeys(o, s1.after, addr, keys);
      && |u.after.log| - |s1.after.log| <= used
      && (u.result.None? ==> |u.after.log| - |s1.after.log| == used)
  {
    SealedVisitNodes(o, w, addr, keys);
  }

  /** How many keys one visit to a sealed node gives, and the state it leaves
      the node in when no key failed. */
  lemma SealedVisitNodes(o: Oracle, w: World, addr: string, keys: seq<string>)
    requires addr in w.nodes
    requires SealStatusStep(o, w, addr).result == Ok(true)
    ensures var n := w.nodes[addr];
      var used := Min(Need(n), |keys|);
      var s1 := SealStatusStep(o, w, addr);
      var u := UnsealKeys(o, s1.after, addr, keys);
      && |u.after.log| - |s1.after.log| <= used
      && (u.result.None? ==> |u.after.log| - |s1.after.log| == used && u.after.nodes == w.nodes[addr := Progressed(n, used)])
  {
    var s1 := SealStatusStep(o, w, addr);
    assert s1.after.nodes == w.nodes && w.nodes[addr].sealed;
    UnsealKeysLog(o, s1.after, addr, keys);
    UnsealKeysNodes(o, s1.after, addr, keys);
  }

  /** A prefix stays a prefix behind a common start. */
  lemma PrefixAfter<T>(a: seq<T>, b: seq<T>, c: seq<T>)
    requires b <= c
    ensures a + b <= a + c
  {
    assert (a + c)[..|a + b|] == a + b;
  }

  /** The log of one visit to a sealed node: its SealStatus call, then the
      first keys. */
  lemma SealedVisitLog(o: Oracle, w: World, addr: string, keys: seq<string>)
    requires addr in w.nodes
    requires SealStatusStep(o, w, addr).result == Ok(true)
    ensures var s1 := SealStatusStep(o, w, addr);
      var u := UnsealKeys(o, s1.after, addr, keys);
      var k := |u.after.log| - |s1.after.log|;
      && 0 <= k <= |keys|
      && u.after.log == w.log + Added(w, u.after)
      && Added(w, u.after) == [SealStatus(addr)] + UnsealCalls(addr, keys[..k])
  {
    var s1 := SealStatusStep(o, w, addr);
    assert s1.after.log == w.log + [SealStatus(addr)];
    UnsealKeysLog(o, s1.after, addr, keys);
    var u := UnsealKeys(o, s1.after, addr, keys);
    var given := UnsealCalls(addr, keys[..|u.after.log| - |s1.after.log|]);
    assert u.after.log == w.log + ([SealStatus(addr)] + given);
  }

  /** Fewer keys give a prefix of the Unseal calls. */
  lemma UnsealCallsPrefix(addr: string, keys: seq<string>, k: nat, used: nat)
    requires k <= used <= |keys|
    ensures UnsealCalls(addr, keys[..k]) <= UnsealCalls(addr, keys[..used])
  {
    assert UnsealCalls(addr, keys[..used])[..k] == UnsealCalls(addr, keys[..k]);
  }

  /** Regrouping a log made of four stretches. */
  lemma Associative3<T>(a: seq<T>, b: seq<T>, c: seq<T>, d: seq<T>)
    ensures a + b + c + d == a + (b + c + d)
  {
  }

  /** A sealed node with no transport error takes the keys it needs, or all there are. */
  lemma SealedKeysNoFaults(o: Oracle, v: World, addr: string, keys: seq<string>)
    requires addr in v.nodes && v.nodes[addr].sealed
    requires forall i | i in o.faults :: i < |v.log|
    ensures var u := UnsealKeys(o, v, addr, keys);
      var n := v.nodes[addr];
      var used := Min(Need(n), |keys|);
      && u.result.None?
      && u.after.log == v.log + UnsealCalls(addr, keys[..used])
      && u.after.nodes == v.nodes[addr := Progressed(n, used)]
  {
    var u := UnsealKeys(o, v, addr, keys);
    UnsealKeysFaults(o, v, addr, keys);
    UnsealKeysLog(o, v, addr, keys);
    UnsealKeysNodes(o, v, addr, keys);
  }

  // ---------------------------------------------------------------------------
  // The ready wait

  /** The ready wait only asks `addr` for its seal status, at most once per
      10 s of the deadline that was left. Every probe but the last failed; a
      successful probe ends the wait at once; past the deadline it returns the
      last probe error, or the one it was given when it made no probe. */
  lemma {:induction false} WaitReadyCalls(o: Oracle, w: World, addr: string, tick: nat, elapsed: nat, lastErr: Option<string>)
    requires elapsed <= ReadyDeadline
    ensures var s := WaitReady(o, w, addr, tick, elapsed, lastErr);
      && s.after.nodes == w.nodes
      && |w.log| <= |s.after.log|
      && s.after.log[..|w.log|] == w.log
      && ReadyInterval * (|s.after.log| - |w.log|) <= ReadyDeadline - elapsed
      && (forall i | |w.log| <= i < |s.after.log| :: s.after.log[i] == SealStatus(addr))
      && (forall i | |w.log| <= i < |s.after.log| - 1 :: Fault(o, w.nodes, addr, i).Some?)
      && (s.result.None? ==> |w.log| < |s.after.log| && Fault(o, w.nodes, addr, |s.after.log| - 1).None?)
      && (s.result.Some? ==>
            && s.result.value.ReadyTimedOut?
            && (|s.after.log| == |w.log| ==> s.result.value.lastProbeError == lastErr)
            && (|s.after.log| > |w.log| ==> s.result.value.lastProbeError == Fault(o, w.nodes, addr, |s.after.log| - 1)))
  {
    WaitReadyLog(o, w, addr, tick, elapsed, lastErr);
    WaitReadyResult(o, w, addr, tick, elapsed, lastErr);
  }

  /** The log half of `WaitReadyCalls`. */
  lemma {:induction false} WaitReadyLog(o: Oracle, w: World, addr: string, tick: nat, elapsed: nat, lastErr: Option<string>)
    requires elapsed <= ReadyDeadline
    ensures var s := WaitReady(o, w, addr, tick, elapsed, lastErr);
      && s.after.nodes == w.nodes
      && |w.log| <= |s.after.log|
      && s.after.log[..|w.log|] == w.log
      && ReadyInterval * (|s.after.log| - |w.log|) <= ReadyDeadline - elapsed
      && (forall i | |w.log| <= i < |s.after.log| :: s.after.log[i] == SealStatus(addr))
    decreases ReadyDeadline - elapsed
  {
    var now := elapsed + ReadyInterval + Delay(o.readyDelays, tick);
    if now <= ReadyDeadline {
      var probe := SealStatusStep(o, w, addr);
      assert probe.after.log == w.log + [SealStatus(addr)] && probe.after.nodes == w.nodes;
      if probe.result.Err? {
        var v := probe.after;
        WaitReadyLog(o, v, addr, tick + 1, now, Some(probe.result.error));
        var s := WaitReady(o, v, addr, tick + 1, now, Some(probe.result.error));
        assert WaitReady(o, w, addr, tick, elapsed, lastErr) == s;
        assert s.after.log[..|w.log|] == w.log by {
          assert s.after.log[..|w.log|] == s.after.log[..|v.log|][..|w.log|];
        }
        assert s.after.log[|w.log|] == SealStatus(addr) by {
          assert s.after.log[|w.log|] == s.after.log[..|v.log|][|w.log|];
        }
      }
    }
  }

  /** The result half of `WaitReadyCalls`. */
  lemma {:induction false} WaitReadyResult(o: Oracle, w: World, addr: string, tick: nat, elapsed: nat, lastErr: Option<string>)
    requires elapsed <= ReadyDeadline
    ensures var s := WaitReady(o, w, addr, tick, elapsed, lastErr);
      && |w.log| <= |s.after.log|
      && (forall i | |w.log| <= i < |s.after.log| - 1 :: Fault(o, w.nodes, addr, i).Some?)
      && (s.result.None? ==> |w.log| < |s.after.log| && Fault(o, w.nodes, addr, |s.after.log| - 1).None?)
      && (s.result.Some? ==>
            && s.result.value.ReadyTimedOut?
            && (|s.after.log| == |w.log| ==> s.result.value.lastProbeError == lastErr)
            && (|s.after.log| > |w.log| ==> s.result.value.lastProbeError == Fault(o, w.nodes, addr, |s.after.log| - 1)))
    decreases ReadyDeadline - elapsed
  {
    var now := elapsed + ReadyInterval + Delay(o.readyDelays, tick);
    if now <= ReadyDeadline {
      var probe := SealStatusStep(o, w, addr);
      assert |probe.after.log| == |w.log| + 1 && probe.after.nodes == w.nodes;
      if probe.result.Err? {
        var v := probe.after;
        WaitReadyResult(o, v, addr, tick + 1, now, Some(probe.result.error));
        assert WaitReady(o, w, addr, tick, elapsed, lastErr) == WaitReady(o, v, addr, tick + 1, now, Some(probe.result.error));
      }
    }
  }

  /** With a 10 s interval and a 10-minute deadline the wait probes at most 60 times. */
  lemma AtMostSixtyProbes(o: Oracle, w: World, addr: string)
    ensures var s := WaitReady(o, w, addr, 0, 0, None);
      |w.log| <= |s.after.log| <= |w.log| + 60
  {
    WaitReadyCalls(o, w, addr, 0, 0, None);
  }

  // ---------------------------------------------------------------------------
  // The whole create workflow

  /** The errors that end the workflow before the root token is recorded. */
  predicate BeforeToken(err: Option<InitError>)
  {
    err.Some? && (err.value.StatusCheckFailed? || err.value.AlreadyInitialized? || err.value.InitFailed?)
  }

  /** The outcomes after which the resource has its new id: success, and the two
      ways the optional ready wait can fail. */
  predicate IdSet(err: Option<InitError>)
  {
    err.None? || err.value.ReadyNeedsAddress? || err.value.ReadyTimedOut?
  }

  /** The root token is recorded as soon as Init answers, so every error after
      Init leaves it set; the id is set only once every instance has been walked,
      so an unseal error or a key file error leaves it as it was. */
  lemma CreateResource(cfg: Config, o: Oracle, w: World, d: Resource)
    requires |cfg.instances| > 0
    ensures var out := CreateOutcome(cfg, o, w, d);
      && (out.err.None? ==> out.resource.id != "")
      && out.resource.id == (if IdSet(out.err) then o.newId else d.id)
      && out.resource.rootToken == (if BeforeToken(out.err) then d.rootToken else o.generated.rootToken)
  {
    if o.timeoutError.None? {
      var s := Poll(o, w, cfg.instances[0], o.pollAttempts, None);
      if s.result == Ok(false) {
        InitializeResource(cfg, o, s.after, d);
      }
    }
  }

  lemma InitializeResource(cfg: Config, o: Oracle, w: World, d: Resource)
    requires |cfg.instances| > 0
    ensures var out := InitializeAndUnseal(cfg, o, w, d);
      && out.resource.id == (if IdSet(out.err) then o.newId else d.id)
      && out.resource.rootToken == (if BeforeToken(out.err) then d.rootToken else o.generated.rootToken)
  {
    var s := InitStep(o, w, cfg.instances[0], RequestOf(cfg));
    if s.result.Ok? {
      var f := WriteFileStep(o, s.after, cfg.keysFile, Join(o.generated.keys, '\n'));
      if f.result.None? {
        UnsealInstancesCalls(o, f.after, cfg.instances, o.generated.keys);
        var u := UnsealInstances(o, f.after, cfg.instances, o.generated.keys);
        if u.result.None? && cfg.waitForReady && cfg.address != "" {
          WaitReadyCalls(o, u.after, cfg.address, 0, 0, None);
        }
      }
    }
  }

  /** How many init status checks the workflow made. */
  ghost function StatusChecks(cfg: Config, o: Oracle, w: World): nat
    requires |cfg.instances| > 0
  {
    if o.timeoutError.Some? then 0
    else
      var s := Poll(o, w, cfg.instances[0], o.pollAttempts, None);
      if |w.log| <= |s.after.log| then |s.after.log| - |w.log| else 0
  }

  /** The errors that end the workflow before Init is sent. */
  predicate BeforeInit(err: Option<InitError>)
  {
    err.Some? && (err.value.StatusCheckFailed? || err.value.AlreadyInitialized?)
  }

  /** The order of the calls: a malformed response timeout fails before any
      call; otherwise init status checks against the first instance,
      then, unless they failed or found it initialized, exactly one Init to
      that instance with the configured request; the key file is written next,
      unless Init failed; and everything after that is a seal status check or
      an unseal. A vault found initialized, or given Init, is the first
      instance's own state. */
  lemma {:induction false} CreateCalls(cfg: Config, o: Oracle, w: World, d: Resource)
    requires |cfg.instances| > 0
    ensures var out := CreateOutcome(cfg, o, w, d);
      var t := cfg.instances[0];
      var log := out.world.log;
      var p := |w.log| + StatusChecks(cfg, o, w);
      && p <= |log| && log[..|w.log|] == w.log
      && (o.timeoutError.Some? ==> out.world == w && out.err == Some(StatusCheckFailed(o.timeoutError.value)))
      && (forall i | |w.log| <= i < p :: log[i] == InitStatus(t))
      && (BeforeInit(out.err) <==> |log| == p)
      && (out.err == Some(AlreadyInitialized) ==> t in w.nodes && w.nodes[t].initialized)
      && (!BeforeInit(out.err) ==>
            && t in w.nodes && !w.nodes[t].initialized
            && log[p] == Init(t, RequestOf(cfg))
            && (out.err.Some? && out.err.value.InitFailed? <==> |log| == p + 1))
      && (!BeforeToken(out.err) ==>
            && p + 2 <= |log|
            && log[p + 1] == WriteFile(cfg.keysFile, Join(o.generated.keys, '\n'))
            && (out.err.Some? && out.err.value.KeyWriteFailed? ==> |log| == p + 2)
            && (forall i | p + 2 <= i < |log| :: log[i].SealStatus? || log[i].Unseal?))
  {
    var t := cfg.instances[0];
    if o.timeoutError.None? {
      PollCalls(o, w, t, o.pollAttempts, None);
      var s := Poll(o, w, t, o.pollAttempts, None);
      if s.result == Ok(false) {
        InitializeCalls(cfg, o, s.after, d);
        var out := InitializeAndUnseal(cfg, o, s.after, d);
        assert CreateOutcome(cfg, o, w, d) == out;
        assert |w.log| + StatusChecks(cfg, o, w) == |s.after.log|;
        assert out.world.log[..|s.after.log|] == s.after.log;
        assert out.world.log[..|w.log|] == s.after.log[..|w.log|];
      }
    }
  }

  lemma {:induction false} InitializeCalls(cfg: Config, o: Oracle, w: World, d: Resource)
    requires |cfg.instances| > 0
    ensures var out := InitializeAndUnseal(cfg, o, w, d);
      var t := cfg.instances[0];
      var log := out.world.log;
      var p := |w.log|;
      && !BeforeInit(out.err)
      && p < |log| && log[..p] == w.log
      && log[p] == Init(t, RequestOf(cfg))
      && (out.err.Some? && out.err.value.InitFailed? <==> |log| == p + 1)
      && (!BeforeToken(out.err) ==>
            && p + 2 <= |log|
            && log[p + 1] == WriteFile(cfg.keysFile, Join(o.generated.keys, '\n'))
            && (out.err.Some? && out.err.value.KeyWriteFailed? ==>
                  && |log| == p + 2
                  && o.writeError.Some?
                  && out.err.value == KeyWriteFailed(o.writeError.value, Join(o.generated.keys, '\n')))
            && (forall i | p + 2 <= i < |log| :: log[i].SealStatus? || log[i].Unseal?))
  {
    var t := cfg.instances[0];
    var s := InitStep(o, w, t, RequestOf(cfg));
    if s.result.Ok? {
      var keys := Join(o.generated.keys, '\n');
      var f := WriteFileStep(o, s.after, cfg.keysFile, keys);
      assert f.after.log == w.log + [Init(t, RequestOf(cfg)), WriteFile(cfg.keysFile, keys)];
      if f.result.None? {
        var withToken := d.(rootToken := o.generated.rootToken);
        UnsealThenFinish(cfg, o, f.after, withToken);
        var out := InitializeAndUnseal(cfg, o, w, d);
        assert out.world.log[..|w.log|] == f.after.log[..|w.log|];
      }
    }
  }

  /** What follows a written key file: the unseal walk and the ready wait only
      check seal status and unseal, and fail only in one of those two steps. */
  lemma UnsealThenFinish(cfg: Config, o: Oracle, v: World, withToken: Resource)
    ensures var u := UnsealInstances(o, v, cfg.instances, o.generated.keys);
      var out := if u.result.Some? then Outcome(u.result, withToken, u.after)
        else FinishCreate(cfg, o, u.after, withToken.(id := o.newId));
      && StatusAndUnsealAfter(v, out.world)
      && (out.err.Some? ==>
            out.err.value.SealStatusFailed? || out.err.value.UnsealFailed?
            || out.err.value.ReadyNeedsAddress? || out.err.value.ReadyTimedOut?)
  {
    UnsealInstancesCalls(o, v, cfg.instances, o.generated.keys);
    var u := UnsealInstances(o, v, cfg.instances, o.generated.keys);
    WalkOnlyStatusAndUnseal(v, u.after);
    if u.result.None? {
      FinishOnlyStatus(cfg, o, u.after, withToken.(id := o.newId));
      var out := FinishCreate(cfg, o, u.after, withToken.(id := o.newId));
      ExtendsTrans(v, u.after, out.world);
    }
  }

  /** `after` extends the log of `before` with seal status checks and unseals only. */
  ghost predicate StatusAndUnsealAfter(before: World, after: World)
  {
    && |before.log| <= |after.log| && after.log[..|before.log|] == before.log
    && (forall i | |before.log| <= i < |after.log| :: after.log[i].SealStatus? || after.log[i].Unseal?)
  }

  lemma ExtendsTrans(a: World, b: World, c: World)
    requires StatusAndUnsealAfter(a, b) && StatusAndUnsealAfter(b, c)
    ensures StatusAndUnsealAfter(a, c)
  {
    assert c.log[..|a.log|] == c.log[..|b.log|][..|a.log|];
  }

  lemma WalkOnlyStatusAndUnseal(before: World, after: World)
    requires after.log == before.log + Added(before, after)
    requires forall c | c in Added(before, after) :: c.SealStatus? || c.Unseal?
    ensures StatusAndUnsealAfter(before, after)
  {
    var walk := Added(before, after);
    forall i | |before.log| <= i < |after.log| ensures after.log[i].SealStatus? || after.log[i].Unseal? {
      assert after.log[i] == walk[i - |before.log|];
    }
  }

  /** The optional ready wait only probes seal status and keeps the resource as
      it was given. Without `wait_for_ready` nothing happens; with it but no
      address it fails at once, with no call; otherwise it fails only at the
      deadline. */
  lemma FinishOnlyStatus(cfg: Config, o: Oracle, w: World, d: Resource)
    ensures var out := FinishCreate(cfg, o, w, d);
      && StatusAndUnsealAfter(w, out.world)
      && out.resource == d
      && (!cfg.waitForReady ==> out == Outcome(None, d, w))
      && (cfg.waitForReady && cfg.address == "" ==> out == Outcome(Some(ReadyNeedsAddress), d, w))
      && (cfg.waitForReady && cfg.address != "" ==> out.err.None? || out.err.value.ReadyTimedOut?)
      && (out.err.Some? ==> out.err.value.ReadyNeedsAddress? || out.err.value.ReadyTimedOut?)
  {
    if cfg.waitForReady && cfg.address != "" {
      WaitReadyCalls(o, w, cfg.address, 0, 0, None);
    }
  }

  /** When the Init answer cannot be written to the key file, the error message
      still carries every key. */
  lemma KeysInWriteError(cfg: Config, o: Oracle, w: World, d: Resource)
    requires |cfg.instances| > 0
    ensures var out := CreateOutcome(cfg, o, w, d);
      out.err.Some? && out.err.value.KeyWriteFailed? ==> Contains(out.err.value.Message(), Join(o.generated.keys, '\n'))
  {
    var out := CreateOutcome(cfg, o, w, d);
    if out.err.Some? && out.err.value.KeyWriteFailed? {
      if o.timeoutError.None? {
        var s := Poll(o, w, cfg.instances[0], o.pollAttempts, None);
        if s.result == Ok(false) {
          InitializeCalls(cfg, o, s.after, d);
        }
      }
      var e := out.err.value;
      ContainsInfix("failed to write unseal keys: error was: " + e.cause + ". keys are: ", e.keys, ".");
    }
  }

  /** A run where nothing fails in transport: one status check finds the first
      instance uninitialized, Init is sent to it, the keys are written, every
      instance is walked as its own state says, and (when asked) one probe of
      the ready address ends the wait. The resource ends with the new id and the
      generated root token. */
  lemma CreateHappyPath(cfg: Config, o: Oracle, w: World, d: Resource)
    requires |cfg.instances| > 0
    requires o.timeoutError.None? && o.pollAttempts > 0 && o.writeError.None?
    requires forall i | i in o.faults :: i < |w.log|
    requires forall a | a in cfg.instances :: a in w.nodes
    requires !w.nodes[cfg.instances[0]].initialized
    requires cfg.waitForReady ==>
      cfg.address != "" && cfg.address in w.nodes && ReadyInterval + Delay(o.readyDelays, 0) <= ReadyDeadline
    ensures var out := CreateOutcome(cfg, o, w, d);
      var t := cfg.instances[0];
      var initialized := w.nodes[t := w.nodes[t].(initialized := true)];
      && out.err.None?
      && out.resource == Resource(o.newId, o.generated.rootToken)
      && out.world.log == w.log
           + [InitStatus(t), Init(t, RequestOf(cfg)), WriteFile(cfg.keysFile, Join(o.generated.keys, '\n'))]
           + ExpectedUnseal(initialized, cfg.instances, o.generated.keys)
           + (if cfg.waitForReady then [SealStatus(cfg.address)] else [])
  {
    var t := cfg.instances[0];
    var s := InitStatusStep(o, w, t);
    assert s.result == Ok(false);
    assert Poll(o, w, t, o.pollAttempts, None) == s;
    var i := InitStep(o, s.after, t, RequestOf(cfg));
    assert i.result == Ok(o.generated);
    var keys := Join(o.generated.keys, '\n');
    var f := WriteFileStep(o, i.after, cfg.keysFile, keys);
    assert f.after.log == w.log + [InitStatus(t), Init(t, RequestOf(cfg)), WriteFile(cfg.keysFile, keys)];
    assert f.after.nodes == w.nodes[t := w.nodes[t].(initialized := true)];
    UnsealInstancesNoFaults(o, f.after, cfg.instances, o.generated.keys);
    var u := UnsealInstances(o, f.after, cfg.instances, o.generated.keys);
    if cfg.waitForReady {
      assert cfg.address in u.after.nodes;
      assert WaitReady(o, u.after, cfg.address, 0, 0, None) == Step(None, u.after.(log := u.after.log + [SealStatus(cfg.address)]));
    }
  }

  /** Five keys with a threshold of three: each sealed node gets the first three
      keys and no more, and an unsealed node only has its status checked. */
  lemma ThresholdExample()
    ensures var nodes := map["a" := Node(true, true, 3), "b" := Node(true, false, 0), "c" := Node(true, true, 3)];
      ExpectedUnseal(nodes, ["a", "b", "c"], ["k1", "k2", "k3", "k4", "k5"])
      == [SealStatus("a"), Unseal("a", "k1"), Unseal("a", "k2"), Unseal("a", "k3"),
          SealStatus("b"),
          SealStatus("c"), Unseal("c", "k1"), Unseal("c", "k2"), Unseal("c", "k3")]
  {
    var keys := ["k1", "k2", "k3", "k4", "k5"];
    var nodes := map["a" := Node(true, true, 3), "b" := Node(true, false, 0), "c" := Node(true, true, 3)];
    var unsealed := Node(true, false, 0);
    assert keys[..3] == ["k1", "k2", "k3"];
    assert ["a", "b", "c"][1..] == ["b", "c"];
    assert ["b", "c"][1..] == ["c"];
    assert ["c"][1..] == [];
    assert ExpectedUnseal(nodes["a" := unsealed], ["c"], keys) == [SealStatus("c"), Unseal("c", "k1"), Unseal("c", "k2"), Unseal("c", "k3")];
    assert ExpectedUnseal(nodes["a" := unsealed], ["b", "c"], keys)
        == [SealStatus("b"), SealStatus("c"), Unseal("c", "k1"), Unseal("c", "k2"), Unseal("c", "k3")];
  }

  /** A seal status or unseal error ends the whole workflow: the calls after the
      key file are exactly a walk that stopped at the instance it was working
      on, so no later instance is contacted, no ready probe is made and the id
      is not set. When every instance has a node behind it, those calls are a
      prefix of the fault-free walk over the nodes as Init left them: no key
      went to a node that reported unsealed, and every key went to the node
      being visited, in order. */
  lemma UnsealErrorEndsCreate(cfg: Config, o: Oracle, w: World, d: Resource)
    requires |cfg.instances| > 0
    ensures var out := CreateOutcome(cfg, o, w, d);
      var p := |w.log| + StatusChecks(cfg, o, w);
      var t := cfg.instances[0];
      out.err.Some? && (out.err.value.SealStatusFailed? || out.err.value.UnsealFailed?) ==>
        && p + 2 <= |out.world.log|
        && WalkedInOrder(cfg.instances, out.world.log[p + 2..], out.err)
        && ((forall a | a in cfg.instances :: a in w.nodes) ==>
              out.world.log[p + 2..] <= ExpectedUnseal(w.nodes[t := w.nodes[t].(initialized := true)], cfg.instances, o.generated.keys))
        && out.resource.id == d.id
  {
    if o.timeoutError.None? {
      var t := cfg.instances[0];
      PollCalls(o, w, t, o.pollAttempts, None);
      var s := Poll(o, w, t, o.pollAttempts, None);
      if s.result == Ok(false) {
        UnsealErrorEndsInitialize(cfg, o, s.after, d);
      }
    }
  }

  lemma UnsealErrorEndsInitialize(cfg: Config, o: Oracle, w: World, d: Resource)
    requires |cfg.instances| > 0
    ensures var out := InitializeAndUnseal(cfg, o, w, d);
      var t := cfg.instances[0];
      out.err.Some? && (out.err.value.SealStatusFailed? || out.err.value.UnsealFailed?) ==>
        && |w.log| + 2 <= |out.world.log|
        && WalkedInOrder(cfg.instances, out.world.log[|w.log| + 2..], out.err)
        && ((forall a | a in cfg.instances :: a in w.nodes) ==>
              out.world.log[|w.log| + 2..] <= ExpectedUnseal(w.nodes[t := w.nodes[t].(initialized := true)], cfg.instances, o.generated.keys))
        && out.resource.id == d.id
  {
    var s := InitStep(o, w, cfg.instances[0], RequestOf(cfg));
    if s.result.Ok? {
      var f := WriteFileStep(o, s.after, cfg.keysFile, Join(o.generated.keys, '\n'));
      if f.result.None? {
        UnsealInstancesCalls(o, f.after, cfg.instances, o.generated.keys);
        if forall a | a in cfg.instances :: a in w.nodes {
          var t := cfg.instances[0];
          assert f.after.nodes == w.nodes[t := w.nodes[t].(initialized := true)];
          UnsealInstancesPrefix(o, f.after, cfg.instances, o.generated.keys);
        }
        var u := UnsealInstances(o, f.after, cfg.instances, o.generated.keys);
        assert |f.after.log| == |w.log| + 2;
        if u.result.None? {
          FinishOnlyStatus(cfg, o, u.after, Resource(o.newId, o.generated.rootToken));
        } else {
          assert u.after.log[|w.log| + 2..] == Added(f.after, u.after);
        }
      }
    }
  }

  /** Two sealed instances, five keys with a threshold of three, no ready wait
      and no transport error: one status check and one Init against the first
      instance, a five-line key file, then both instances in order, each given
      the first three keys; the run ends with an id and a root token. The key
      file holds one key per line (see `SplitJoin`). */
  lemma EndToEndExample(cfg: Config, o: Oracle, w: World, d: Resource)
    requires cfg == Config(["10.0.0.1:8200", "10.0.0.2:8200"], 5, 3, [], "keys.txt", false, "")
    requires o == Oracle(map[], InitResponse("root", ["k1", "k2", "k3", "k4", "k5"]), None, None, 1, map[], "id-1")
    requires w == World(map["10.0.0.1:8200" := Node(false, true, 3), "10.0.0.2:8200" := Node(false, true, 3)], [])
    ensures var out := CreateOutcome(cfg, o, w, d);
      var a, b := "10.0.0.1:8200", "10.0.0.2:8200";
      && out.err.None?
      && out.resource == Resource("id-1", "root")
      && out.world.log == [InitStatus(a), Init(a, InitRequest(5, 3, [])), WriteFile("keys.txt", Join(o.generated.keys, '\n'))]
           + [SealStatus(a), Unseal(a, "k1"), Unseal(a, "k2"), Unseal(a, "k3"),
              SealStatus(b), Unseal(b, "k1"), Unseal(b, "k2"), Unseal(b, "k3")]
  {
    var a, b := "10.0.0.1:8200", "10.0.0.2:8200";
    var walk := [SealStatus(a), Unseal(a, "k1"), Unseal(a, "k2"), Unseal(a, "k3"),
                 SealStatus(b), Unseal(b, "k1"), Unseal(b, "k2"), Unseal(b, "k3")];
    var nodes := w.nodes[a := w.nodes[a].(initialized := true)];
    assert ExpectedUnseal(nodes, cfg.instances, o.generated.keys) == walk by {
      assert nodes == map[a := Node(true, true, 3), b := Node(false, true, 3)];
      TwoSealedInstances();
    }
    CreateHappyPath(cfg, o, w, d);
    var start := [InitStatus(a), Init(a, RequestOf(cfg)), WriteFile(cfg.keysFile, Join(o.generated.keys, '\n'))];
    assert CreateOutcome(cfg, o, w, d).world.log == w.log + start + walk + [];
    assert w.log + start + walk + [] == start + walk;
  }

  /** The unseal walk of the end-to-end example. */
  lemma TwoSealedInstances()
    ensures var a, b := "10.0.0.1:8200", "10.0.0.2:8200";
      var nodes := map[a := Node(true, true, 3), b := Node(false, true, 3)];
      ExpectedUnseal(nodes, [a, b], ["k1", "k2", "k3", "k4", "k5"])
      == [SealStatus(a), Unseal(a, "k1"), Unseal(a, "k2"), Unseal(a, "k3"),
          SealStatus(b), Unseal(b, "k1"), Unseal(b, "k2"), Unseal(b, "k3")]
  {
    var keys := ["k1", "k2", "k3", "k4", "k5"];
    assert keys[..3] == ["k1", "k2", "k3"];
    assert ["10.0.0.1:8200", "10.0.0.2:8200"][1..] == ["10.0.0.2:8200"];
    assert ["10.0.0.2:8200"][1..] == [];
  }
}

=== FILE: init_workflow.dfy ===
/** `resourceInitCreate` and `resourceInitDelete` as imperative code: a resource
    object whose fields the workflow sets, and an `Environment` object that
    stands for the Vault nodes and the file system, whose methods answer each
    call and log it. Every method is proved to do what the matching function
    of `InitModel` says. */
module InitWorkflow {
  import opened Wrappers
  import opened Strings
  import opened InitModel

  /** The Vault nodes and the file system, as the workflow's calls change them. */
  class Environment {
    var nodes: map<string, Node>
    var log: seq<Call>
    const oracle: Oracle

    function State(): World
      reads this
    {
      World(nodes, log)
    }

    constructor (nodes: map<string, Node>, oracle: Oracle)
      ensures State() == World(nodes, []) && this.oracle == oracle
    {
      this.nodes := nodes;
      this.log := [];
      this.oracle := oracle;
    }

    /** `client.Sys().InitStatus()` against `addr`. */
    method InitStatus(addr: string) returns (initialized: Result<bool>)
      modifies this
      ensures Step(initialized, State()) == InitStatusStep(oracle, old(State()), addr)
    {
      var fault := Fault(oracle, nodes, addr, |log|);
      log := log + [Call.InitStatus(addr)];
      initialized := if fault.Some? then Err(fault.value) else Ok(nodes[addr].initialized);
    }

    /** `client.Sys().Init(req)` against `addr`. */
    method Init(addr: string, req: InitRequest) returns (resp: Result<InitResponse>)
      modifies this
      ensures Step(resp, State()) == InitStep(oracle, old(State()), addr, req)
    {
      var fault := Fault(oracle, nodes, addr, |log|);
      log := log + [Call.Init(addr, req)];
      if fault.Some? {
        resp := Err(fault.value);
      } else {
        nodes := nodes[addr := nodes[addr].(initialized := true)];
        resp := Ok(oracle.generated);
      }
    }

    /** `ioutil.WriteFile(path, content, 0600)`. */
    method WriteFile(path: string, content: string) returns (err: Option<string>)
      modifies this
      ensures Step(err, State()) == WriteFileStep(oracle, old(State()), path, content)
    {
      log := log + [Call.WriteFile(path, content)];
      err := oracle.writeError;
    }

    /** `client.Sys().SealStatus()` against `addr`; answers whether it is sealed. */
    method SealStatus(addr: string) returns (sealed: Result<bool>)
      modifies this
      ensures Step(sealed, State()) == SealStatusStep(oracle, old(State()), addr)
    {
      var fault := Fault(oracle, nodes, addr, |log|);
      log := log + [Call.SealStatus(addr)];
      sealed := if fault.Some? then Err(fault.value) else Ok(nodes[addr].sealed);
    }

    /** `client.Sys().Unseal(key)` against `addr`; answers whether it is still sealed. */
    method Unseal(addr: string, key: string) returns (sealed: Result<bool>)
      modifies this
      ensures Step(sealed, State()) == UnsealStep(oracle, old(State()), addr, key)
    {
      var fault := Fault(oracle, nodes, addr, |log|);
      log := log + [Call.Unseal(addr, key)];
      if fault.Some? {
        sealed := Err(fault.value);
      } else {
        var n := AfterKey(nodes[addr]);
        nodes := nodes[addr := n];
        sealed := Ok(n.sealed);
      }
    }
  }

  /** The status poll: InitStatus again and again, with no pause, until one
      answers or the response timeout fires. */
  method PollInitStatus(env: Environment, addr: string) returns (status: Result<bool>)
    modifies env
    ensures Step(status, env.State()) == Poll(env.oracle, old(env.State()), addr, env.oracle.pollAttempts, None)
  {
    var lastErr: Option<string> := None;
    var attempts := env.oracle.pollAttempts;
    while true
      invariant Poll(env.oracle, env.State(), addr, attempts, lastErr)
             == Poll(env.oracle, old(env.State()), addr, env.oracle.pollAttempts, None)
      decreases attempts
    {
      if attempts == 0 {
        // the response timeout has fired
        status := Err(if lastErr.Some? then lastErr.value else "unexpected error");
        return;
      }
      status := env.InitStatus(addr);
      if status.Ok? {
        return;
      }
      lastErr := Some(status.error);
      attempts := attempts - 1;
    }
  }

  /** The unseal walk over `instances`, with the keys Init returned. */
  method UnsealAll(env: Environment, instances: seq<string>, keys: seq<string>) returns (err: Option<InitError>)
    modifies env
    ensures Step(err, env.State()) == UnsealInstances(env.oracle, old(env.State()), instances, keys)
  {
    err := None;
    var i := 0;
    while i < |instances|
      invariant 0 <= i <= |instances|
      invariant UnsealInstances(env.oracle, env.State(), instances[i..], keys)
             == UnsealInstances(env.oracle, old(env.State()), instances, keys)
    {
      var addr := instances[i];
      assert instances[i..][1..] == instances[i + 1..];
      var sealed := env.SealStatus(addr);
      if sealed.Err? {
        return Some(SealStatusFailed(sealed.error));
      }
      if sealed.value {
        ghost var start := env.State();
        var j := 0;
        while j < |keys|
          invariant 0 <= j <= |keys|
          invariant UnsealKeys(env.oracle, env.State(), addr, keys[j..]) == UnsealKeys(env.oracle, start, addr, keys)
        {
          assert keys[j..][1..] == keys[j + 1..];
          var r := env.Unseal(addr, keys[j]);
          if r.Err? {
            return Some(UnsealFailed(r.error));
          }
          if !r.value {
            assert UnsealKeys(env.oracle, start, addr, keys) == Step(None, env.State());
            break;
          }
          j := j + 1;
        }
        assert keys[|keys|..] == [];
        assert UnsealKeys(env.oracle, start, addr, keys) == Step(None, env.State());
      }
      i := i + 1;
    }
    assert instances[|instances|..] == [];
  }

  /** The ready wait: every 10 s, unless the 10-minute deadline has passed,
      ask `addr` for its seal status; the first answer ends the wait. */
  method AwaitReady(env: Environment, addr: string) returns (err: Option<InitError>)
    modifies env
    ensures Step(err, env.State()) == WaitReady(env.oracle, old(env.State()), addr, 0, 0, None)
  {
    var lastErr: Option<string> := None;
    var tick, elapsed := 0, 0;
    while true
      invariant elapsed <= ReadyDeadline
      invariant WaitReady(env.oracle, env.State(), addr, tick, elapsed, lastErr)
             == WaitReady(env.oracle, old(env.State()), addr, 0, 0, None)
      decreases ReadyDeadline - elapsed
    {
      var now := elapsed + ReadyInterval + Delay(env.oracle.readyDelays, tick);
      if now > ReadyDeadline {
        return Some(ReadyTimedOut(lastErr));
      }
      var probe := env.SealStatus(addr);
      if probe.Ok? {
        return None;
      }
      lastErr := Some(probe.error);
      tick, elapsed := tick + 1, now;
    }
  }

  /** The `vault_init` resource: its configuration and the state the workflow writes. */
  class InitResource {
    const config: Config
    var id: string
    var rootToken: string

    function Value(): Resource
      reads this
    {
      Resource(id, rootToken)
    }

    constructor (config: Config)
      ensures this.config == config && Value() == Resource("", "")
    {
      this.config := config;
      id := "";
      rootToken := "";
    }

    /** `resourceInitCreate`. */
    method Create(env: Environment) returns (err: Option<InitError>)
      requires |config.instances| > 0
      modifies this, env
      ensures Outcome(err, Value(), env.State()) == CreateOutcome(config, env.oracle, old(env.State()), old(Value()))
    {
      var target := config.instances[0];
      if env.oracle.timeoutError.Some? {
        return Some(StatusCheckFailed(env.oracle.timeoutError.value));
      }
      var status := PollInitStatus(env, target);
      if status.Err? {
        return Some(StatusCheckFailed(status.error));
      }
      if status.value {
        return Some(AlreadyInitialized);
      }
      var resp := env.Init(target, RequestOf(config));
      if resp.Err? {
        return Some(InitFailed(resp.error));
      }
      rootToken := resp.value.rootToken;
      var keys := Join(resp.value.keys, '\n');
      var writeErr := env.WriteFile(config.keysFile, keys);
      if writeErr.Some? {
        return Some(KeyWriteFailed(writeErr.value, keys));
      }
      err := UnsealAll(env, config.instances, resp.value.keys);
      if err.Some? {
        return;
      }
      id := env.oracle.newId;
      if config.waitForReady {
        if config.address == "" {
          return Some(ReadyNeedsAddress);
        }
        err := AwaitReady(env, config.address);
      }
    }

    /** `resourceInitDelete`: forgets the id, and touches nothing remote. */
    method Delete() returns (err: Option<InitError>)
      modifies this
      ensures err.None? && id == "" && rootToken == old(rootToken)
    {
      id := "";
      err := None;
    }
  }
}

=== FILE: secret_model.dfy ===
/** The generic `vault_secret` resource as functions on values: what each
    operation sends to Vault, and what it leaves in the resource's state and in
    the server's store. */
module SecretModel {
  import opened Wrappers
  import opened Strings
  import opened VaultApi

  /** The resource's fixed settings. */
  datatype SecretConfig = SecretConfig(path: string, ignoreRead: bool, ignoreDelete: bool)

  /** The resource's data as Terraform holds it: the id and the `ttl` and `data` attributes. */
  datatype SecretState = SecretState(id: string, ttl: string, data: map<string, string>)

  /** What an operation returns and leaves behind. */
  datatype Outcome = Outcome(err: Option<string>, state: SecretState, store: Store)

  /** The key under which the lease TTL travels inside a secret's data. */
  const TtlKey: string := "ttl"

  /** The data sent by a write: the configured data, with a non-empty ttl added
      under "ttl". */
  function WithTtl(data: map<string, string>, ttl: string): (sent: map<string, string>)
    ensures ttl == "" ==> sent == data
    ensures ttl != "" ==> TtlKey in sent && sent[TtlKey] == ttl && sent.Keys == data.Keys + {TtlKey}
    ensures forall k | k in sent && k != TtlKey :: k in data && sent[k] == data[k]
  {
    if ttl != "" then data[TtlKey := ttl] else data
  }

  /** The data a read keeps: everything but "ttl". */
  function Stripped(data: map<string, string>): (kept: map<string, string>)
    ensures TtlKey !in kept
    ensures kept.Keys == data.Keys - {TtlKey}
    ensures forall k | k in kept :: kept[k] == data[k]
  {
    data - {TtlKey}
  }

  /** `isSecretNotFoundError`: whether an error's text mentions a bad token. */
  function IsSecretNotFoundError(message: string): (notFound: bool)
    ensures notFound <==> Contains(message, "bad token")
  {
    HasSubstring(message, "bad token")
  }

  /** `resourceVaultSecretCreate`, which is also the resource's Update: write the
      data (with the ttl) to the path; a response's data is merged over what was
      sent and becomes the resource's data; the id becomes the path. */
  function CreateOutcome(cfg: SecretConfig, o: Oracle, s: Store, st: SecretState): Outcome
  {
    if o.clientError.Some? then Outcome(o.clientError, st, s)
    else
      var sent := WithTtl(st.data, st.ttl);
      var w := WriteStep(o, s, cfg.path, Fields(sent));
      match w.result
      case Err(e) => Outcome(Some(e), st, w.after)
      case Ok(response) =>
        var data := if response.Some? then sent + response.value else st.data;
        Outcome(None, st.(id := cfg.path, data := data), w.after)
  }

  /** `resourceVaultSecretExists`: true without asking when reads are ignored,
      otherwise whether a secret is stored at the path. */
  function ExistsOutcome(cfg: SecretConfig, o: Oracle, s: Store): Step<bool>
  {
    if o.clientError.Some? then Step(Err(o.clientError.value), s)
    else if cfg.ignoreRead then Step(Ok(true), s)
    else
      var r := ReadStep(o, s, cfg.path);
      match r.result
      case Err(e) => Step(Err(e), r.after)
      case Ok(secret) => Step(Ok(secret.Some?), r.after)
  }

  /** The read in `resourceVaultSecretRead` answers a secret (Go dereferences it
      without a nil check), unless it is skipped or fails. */
  predicate ReadFindsSecret(cfg: SecretConfig, o: Oracle, s: Store)
  {
    cfg.ignoreRead || o.clientError.Some? || ReadStep(o, s, cfg.path).result != Ok(None)
  }

  /** `resourceVaultSecretRead`: the secret's "ttl" entry, if any, becomes the
      ttl attribute; the rest of its data becomes the data attribute. */
  function ReadOutcome(cfg: SecretConfig, o: Oracle, s: Store, st: SecretState): Outcome
    requires ReadFindsSecret(cfg, o, s)
  {
    if o.clientError.Some? then Outcome(o.clientError, st, s)
    else if cfg.ignoreRead then Outcome(None, st, s)
    else
      var r := ReadStep(o, s, cfg.path);
      match r.result
      case Err(e) => Outcome(Some(e), st, r.after)
      case Ok(found) =>
        var secret := found.value;
        var ttl := if TtlKey in secret then secret[TtlKey] else st.ttl;
        Outcome(None, st.(ttl := ttl, data := Stripped(secret)), r.after)
  }

  /** `resourceVaultSecretDelete`: delete the secret unless deletes are ignored,
      then forget the id. */
  function DeleteOutcome(cfg: SecretConfig, o: Oracle, s: Store, st: SecretState): Outcome
  {
    if o.clientError.Some? then Outcome(o.clientError, st, s)
    else if cfg.ignoreDelete then Outcome(None, st.(id := ""), s)
    else
      var d := DeleteStep(o, s, cfg.path);
      match d.result
      case Err(e) => Outcome(Some(e), st, d.after)
      case Ok(_) => Outcome(None, st.(id := ""), d.after)
  }

  // ---------------------------------------------------------------------------
  // Properties

  /** Adding the ttl touches nothing but the "ttl" entry. */
  lemma WithTtlOnlyAddsTtl(data: map<string, string>, ttl: string)
    ensures Stripped(WithTtl(data, ttl)) == Stripped(data)
  {
  }

  /** Create makes exactly one call, a write to the path of the configured data
      with the ttl. It fails exactly when the write fails; the write's error is
      returned and leaves the resource as it was; a successful one sets the id to the path. A response's entries
      override or extend the data that was sent; without a response the data
      attribute keeps the configured data. */
  lemma CreateWrites(cfg: SecretConfig, o: Oracle, s: Store, st: SecretState)
    requires o.clientError.None?
    ensures var out := CreateOutcome(cfg, o, s, st);
      var sent := WithTtl(st.data, st.ttl);
      && out.store.log == s.log + [Write(cfg.path, Fields(sent))]
      && (out.err.Some? <==> |s.log| in o.faults)
      && (out.err.Some? ==> out.state == st && out.err == Some(o.faults[|s.log|]))
      && (out.err.None? ==> out.state.id == cfg.path && out.state.ttl == st.ttl && cfg.path in out.store.secrets)
      && (out.err.None? && cfg.path in o.responses ==>
            var response := o.responses[cfg.path];
            && out.state.data.Keys == sent.Keys + response.Keys
            && (forall k | k in response :: out.state.data[k] == response[k])
            && (forall k | k in sent && k !in response :: out.state.data[k] == sent[k]))
      && (out.err.None? && cfg.path !in o.responses ==> out.state.data == st.data)
  {
  }

  /** With reads ignored Exists answers true and asks nothing; otherwise it
      fails exactly when the read fails, with the read's error, and else
      answers whether the store holds key/value data at the path. */
  lemma ExistsAnswers(cfg: SecretConfig, o: Oracle, s: Store)
    requires o.clientError.None?
    ensures var e := ExistsOutcome(cfg, o, s);
      && (cfg.ignoreRead ==> e == Step(Ok(true), s))
      && (!cfg.ignoreRead ==> e.after.log == s.log + [Read(cfg.path)])
      && (!cfg.ignoreRead ==> (e.result.Err? <==> |s.log| in o.faults))
      && (!cfg.ignoreRead && e.result.Err? ==> e.result == Err(o.faults[|s.log|]))
      && (!cfg.ignoreRead && e.result.Ok? ==>
            (e.result.value <==> cfg.path in s.secrets && s.secrets[cfg.path].Fields?))
  {
  }

  /** With reads ignored Read changes nothing and asks nothing. Otherwise Read
      fails exactly when the read fails, with the read's error, and a
      successful Read leaves no "ttl" entry in the data, takes the ttl from the
      secret when it has one, and keeps every other entry of the secret. */
  lemma ReadStripsTtl(cfg: SecretConfig, o: Oracle, s: Store, st: SecretState)
    requires o.clientError.None? && ReadFindsSecret(cfg, o, s)
    ensures var out := ReadOutcome(cfg, o, s, st);
      && (cfg.ignoreRead ==> out == Outcome(None, st, s))
      && (!cfg.ignoreRead ==> out.store.log == s.log + [Read(cfg.path)] && out.store.secrets == s.secrets)
      && (!cfg.ignoreRead ==> (out.err.Some? <==> |s.log| in o.faults))
      && (out.err.Some? ==> out.err == Some(o.faults[|s.log|]))
      && (!cfg.ignoreRead && out.err.None? ==>
            var secret := s.secrets[cfg.path].fields;
            && TtlKey !in out.state.data
            && out.state.data == Stripped(secret)
            && out.state.ttl == (if TtlKey in secret then secret[TtlKey] else st.ttl)
            && out.state.id == st.id)
      && (out.err.Some? ==> out.state == st)
  {
  }

  /** A write followed by a read gives the resource its own data back: with no
      transport error and no response data, Read after Create restores the data
      without "ttl", and the ttl (the configured one, or else the data's "ttl"
      entry). A resource whose data has no "ttl" entry comes back unchanged
      apart from its id. */
  lemma {:induction false} CreateThenRead(cfg: SecretConfig, o: Oracle, s: Store, st: SecretState)
    requires o.clientError.None? && !cfg.ignoreRead
    requires |s.log| !in o.faults && |s.log| + 1 !in o.faults
    requires cfg.path !in o.responses
    ensures var c := CreateOutcome(cfg, o, s, st);
      && c.err.None?
      && ReadFindsSecret(cfg, o, c.store)
      && var r := ReadOutcome(cfg, o, c.store, c.state);
      && r.err.None?
      && r.state.id == cfg.path
      && r.state.data == Stripped(st.data)
      && r.state.ttl == (if st.ttl != "" then st.ttl else if TtlKey in st.data then st.data[TtlKey] else st.ttl)
      && (TtlKey !in st.data ==> r.state == st.(id := cfg.path))
  {
    var sent := WithTtl(st.data, st.ttl);
    var c := CreateOutcome(cfg, o, s, st);
    assert c.store.secrets[cfg.path] == Fields(sent);
    assert ReadStep(o, c.store, cfg.path).result == Ok(Some(sent));
    WithTtlOnlyAddsTtl(st.data, st.ttl);
    if TtlKey !in st.data {
      assert Stripped(st.data) == st.data;
    }
  }

  /** After a successful Create (with reads not ignored), Exists answers true. */
  lemma CreateThenExists(cfg: SecretConfig, o: Oracle, s: Store, st: SecretState)
    requires o.clientError.None? && !cfg.ignoreRead
    requires |s.log| + 1 !in o.faults
    ensures var c := CreateOutcome(cfg, o, s, st);
      c.err.None? ==> ExistsOutcome(cfg, o, c.store).result == Ok(true)
  {
  }

  /** With deletes ignored nothing is asked. Otherwise Delete fails exactly
      when the delete call fails; its error is returned and keeps the id; otherwise the id is cleared, and the secret is gone from
      the store unless deletes are ignored. */
  lemma DeleteForgets(cfg: SecretConfig, o: Oracle, s: Store, st: SecretState)
    requires o.clientError.None?
    ensures var out := DeleteOutcome(cfg, o, s, st);
      && (cfg.ignoreDelete ==> out == Outcome(None, st.(id := ""), s))
      && (!cfg.ignoreDelete ==> out.store.log == s.log + [Delete(cfg.path)])
      && (!cfg.ignoreDelete ==> (out.err.Some? <==> |s.log| in o.faults))
      && (out.err.Some? ==> out.state == st && out.err == Some(o.faults[|s.log|]))
      && (out.err.None? ==> out.state == st.(id := ""))
      && (out.err.None? && !cfg.ignoreDelete ==> cfg.path !in out.store.secrets)
  {
  }

  /** Any error text with "bad token" in it, wherever, counts as not found. */
  lemma BadTokenIsNotFound(prefix: string, suffix: string)
    ensures IsSecretNotFoundError(prefix + "bad token" + suffix)
  {
    ContainsInfix(prefix, "bad token", suffix);
  }
}

=== FILE: secret_resource.dfy ===
/** The `vault_secret` resource as imperative code: an object holding the
    resource's id, ttl and data, whose operations call the Vault client and
    update those fields step by step. Every operation is proved to do what the
    matching function of `SecretModel` says. */
module SecretResource {
  import opened Wrappers
  import opened VaultApi
  import opened SecretModel

  /** The loop of `resourceVaultSecretCreate` that copies every entry of a write's
      response over the data that was sent. */
  method MergeResponse(sent: map<string, string>, response: map<string, string>) returns (merged: map<string, string>)
    ensures forall k :: k in merged <==> k in sent || k in response
    ensures forall k | k in response :: merged[k] == response[k]
    ensures forall k | k in sent && k !in response :: merged[k] == sent[k]
  {
    merged := sent;
    var pending := response.Keys;
    while pending != {}
      invariant pending <= response.Keys
      invariant forall k :: k in merged <==> k in sent || (k in response && k !in pending)
      invariant forall k | k in response && k !in pending :: merged[k] == response[k]
      invariant forall k | k in sent && (k !in response || k in pending) :: merged[k] == sent[k]
      decreases |pending|
    {
      var key :| key in pending;
      merged := merged[key := response[key]];
      pending := pending - {key};
    }
  }

  /** One `vault_secret` resource. */
  class Secret {
    const config: SecretConfig
    var id: string
    var ttl: string
    var data: map<string, string>

    function State(): SecretState
      reads this
    {
      SecretState(id, ttl, data)
    }

    constructor (config: SecretConfig, ttl: string, data: map<string, string>)
      ensures this.config == config && State() == SecretState("", ttl, data)
    {
      this.config := config;
      id := "";
      this.ttl := ttl;
      this.data := data;
    }

    /** `resourceVaultSecretCreate`. */
    method Create(client: Client) returns (err: Option<string>)
      modifies this, client
      ensures Outcome(err, State(), client.State()) == CreateOutcome(config, client.oracle, old(client.State()), old(State()))
    {
      if client.oracle.clientError.Some? {
        return client.oracle.clientError;
      }
      var sent := data;
      if ttl != "" {
        sent := sent[TtlKey := ttl];
      }
      var written := client.Write(config.path, Fields(sent));
      if written.Err? {
        return Some(written.error);
      }
      if written.value.Some? {
        data := MergeResponse(sent, written.value.value);
        assert data == sent + written.value.value;
      }
      id := config.path;
      err := None;
    }

    /** The resource's Update, which is Create again: a write replaces the secret. */
    method Update(client: Client) returns (err: Option<string>)
      modifies this, client
      ensures Outcome(err, State(), client.State()) == CreateOutcome(config, client.oracle, old(client.State()), old(State()))
    {
      err := Create(client);
    }

    /** `resourceVaultSecretExists`; a failure answers false with the error. */
    method Exists(client: Client) returns (exists_: bool, err: Option<string>)
      modifies client
      ensures err.Some? ==> !exists_
      ensures Step(if err.Some? then Err(err.value) else Ok(exists_), client.State())
           == ExistsOutcome(config, client.oracle, old(client.State()))
    {
      if client.oracle.clientError.Some? {
        return false, client.oracle.clientError;
      }
      if config.ignoreRead {
        return true, None;
      }
      var secret := client.Read(config.path);
      if secret.Err? {
        return false, Some(secret.error);
      }
      return secret.value.Some?, None;
    }

    /** `resourceVaultSecretRead`. */
    method Read(client: Client) returns (err: Option<string>)
      requires ReadFindsSecret(config, client.oracle, client.State())
      modifies this, client
      ensures Outcome(err, State(), client.State()) == ReadOutcome(config, client.oracle, old(client.State()), old(State()))
    {
      if client.oracle.clientError.Some? {
        return client.oracle.clientError;
      }
      if config.ignoreRead {
        return None;
      }
      var secret := client.Read(config.path);
      if secret.Err? {
        return Some(secret.error);
      }
      var found := secret.value.value;
      if TtlKey in found {
        ttl := found[TtlKey];
      }
      data := found - {TtlKey};
      err := None;
    }

    /** `resourceVaultSecretDelete`. */
    method Delete(client: Client) returns (err: Option<string>)
      modifies this, client
      ensures Outcome(err, State(), client.State()) == DeleteOutcome(config, client.oracle, old(client.State()), old(State()))
    {
      if client.oracle.clientError.Some? {
        return client.oracle.clientError;
      }
      if !config.ignoreDelete {
        var deleted := client.Delete(config.path);
        if deleted.Err? {
          return Some(deleted.error);
        }
      }
      id := "";
      err := None;
    }
  }
}

=== FILE: strings.dfy ===
/** The two pieces of Go's `strings` package the core relies on:
    `strings.Join` (the key file) and `strings.Contains` (the not-found test). */
module Strings {

  /** `strings.Join(parts, string([sep]))`. */
  function Join(parts: seq<string>, sep: char): string
  {
    if |parts| == 0 then ""
    else if |parts| == 1 then parts[0]
    else parts[0] + [sep] + Join(parts[1..], sep)
  }

  /** `strings.Split(s, string([sep]))`: the text between separators, so that
      an empty string splits into one empty piece. */
  function Split(s: string, sep: char): (pieces: seq<string>)
    ensures |pieces| > 0
    decreases |s|
  {
    if |s| == 0 then [""]
    else
      var rest := Split(s[1..], sep);
      if s[0] == sep then [""] + rest else [[s[0]] + rest[0]] + rest[1..]
  }

  /** A prefix free of separators glues onto the first piece of what follows. */
  lemma {:induction false} SplitPlainPrefix(p: string, sep: char, t: string)
    requires sep !in p
    ensures Split(p + t, sep) == [p + Split(t, sep)[0]] + Split(t, sep)[1..]
    decreases |p|
  {
    if |p| == 0 {
      var pieces := Split(t, sep);
      assert p + t == t && p + pieces[0] == pieces[0];
      assert [pieces[0]] + pieces[1..] == pieces;
    } else {
      assert (p + t)[0] == p[0];
      assert (p + t)[1..] == p[1..] + t;
      SplitPlainPrefix(p[1..], sep, t);
      assert [p[0]] + (p[1..] + Split(t, sep)[0]) == p + Split(t, sep)[0];
    }
  }

  /** Splitting a join on the same separator gives the parts back, as long as
      there is at least one part and no part contains the separator. */
  lemma {:induction false} SplitJoin(parts: seq<string>, sep: char)
    requires |parts| > 0
    requires forall p :: p in parts ==> sep !in p
    ensures Split(Join(parts, sep), sep) == parts
    decreases |parts|
  {
    if |parts| == 1 {
      SplitPlainPrefix(parts[0], sep, "");
      assert parts[0] + "" == parts[0];
    } else {
      var tail := parts[1..];
      assert forall p :: p in tail ==> p in parts;
      SplitJoin(tail, sep);
      assert Join(parts, sep) == parts[0] + [sep] + Join(tail, sep);
      SplitAfterPart(parts[0], sep, Join(tail, sep));
      assert [parts[0]] + tail == parts;
    }
  }

  /** One more separator-free part in front of a joined text adds one piece. */
  lemma SplitAfterPart(head: string, sep: char, rest: string)
    requires sep !in head
    ensures Split(head + [sep] + rest, sep) == [head] + Split(rest, sep)
  {
    var sepRest := [sep] + rest;
    assert sepRest[0] == sep && sepRest[1..] == rest;
    assert Split(sepRest, sep) == [""] + Split(rest, sep);
    SplitPlainPrefix(head, sep, sepRest);
    assert head + [sep] + rest == head + sepRest;
    assert head + "" == head;
  }

  /** `sub` occurs in `s` starting at position `i`. */
  predicate OccursAt(s: string, sub: string, i: int)
  {
    0 <= i && i + |sub| <= |s| && s[i..i + |sub|] == sub
  }

  /** `sub` occurs in `s` at some position. */
  ghost predicate Contains(s: string, sub: string)
  {
    exists i :: OccursAt(s, sub, i)
  }

  /** `strings.Contains(s, sub)`, by trying each starting position in turn. */
  function HasSubstring(s: string, sub: string): (found: bool)
    ensures found <==> Contains(s, sub)
    decreases |s|
  {
    if |sub| <= |s| && s[..|sub|] == sub then
      assert OccursAt(s, sub, 0);
      true
    else if |s| == 0 then
      false
    else
      var found := HasSubstring(s[1..], sub);
      assert found ==> Contains(s, sub) by {
        if found {
          var i :| OccursAt(s[1..], sub, i);
          assert s[i + 1..i + 1 + |sub|] == s[1..][i..i + |sub|];
          assert OccursAt(s, sub, i + 1);
        }
      }
      assert Contains(s, sub) ==> found by {
        if Contains(s, sub) {
          var i :| OccursAt(s, sub, i);
          assert i != 0;
          assert s[1..][i - 1..i - 1 + |sub|] == s[i..i + |sub|];
          assert OccursAt(s[1..], sub, i - 1);
        }
      }
      found
  }

  /** Text placed between a prefix and a suffix is contained in the result. */
  lemma ContainsInfix(prefix: string, sub: string, suffix: string)
    ensures Contains(prefix + sub + suffix, sub)
  {
    var s := prefix + sub + suffix;
    assert s[|prefix|..|prefix| + |sub|] == sub;
    assert OccursAt(s, sub, |prefix|);
  }
}

=== FILE: vault_api.dfy ===
/** The part of the Vault API client that the `vaultx` resources use, against an
    abstract Vault server: the secrets written at each logical path, the
    mounted secret backends keyed by mount point (the path followed by "/", as
    `ListMounts` reports them), and the log of every call made. Transport errors
    come from an `Oracle`, keyed by the log position of the call, as does what a
    logical write answers. */
module VaultApi {
  import opened Wrappers

  /** The body of a logical write: the key/value data of a generic secret, or one
      of the two postgresql backend configuration requests. */
  datatype Payload =
    | Fields(fields: map<string, string>)
    | Connection(connectionUrl: string, maxOpenConnections: int, maxIdleConnections: int, verifyConnection: bool)
    | Lease(lease: string, leaseMax: string)

  /** `api.MountInput` with its `MountConfigInput`. */
  datatype MountInput = MountInput(typ: string, description: string, defaultLeaseTtl: string, maxLeaseTtl: string)

  /** One mounted secret backend, with its lease TTLs as last configured. */
  datatype MountEntry = MountEntry(typ: string, description: string, defaultLeaseTtl: string, maxLeaseTtl: string)

  /** One call made to the Vault server. */
  datatype Call =
    | Write(path: string, payload: Payload)
    | Read(path: string)
    | Delete(path: string)
    | Mount(path: string, input: MountInput)
    | ListMounts
    | MountConfig(path: string)
    | TuneMount(path: string, defaultLeaseTtl: string, maxLeaseTtl: string)
    | Remount(from: string, to: string)
    | Unmount(path: string)

  datatype Store = Store(secrets: map<string, Payload>, mounts: map<string, MountEntry>, log: seq<Call>)

  /** The answers of the server that the store does not decide. */
  datatype Oracle = Oracle(
    clientError: Option<string>,                  // what `ClientProvider.Client()` fails with
    faults: map<nat, string>,                     // transport error of the call at this position of the log
    responses: map<string, map<string, string>>)  // the data a logical write to this path answers with

  /** The answer to one call and the store after it. */
  datatype Step<T> = Step(result: Result<T>, after: Store)

  /** The key under which `ListMounts` reports the backend mounted at `path`. */
  function MountKey(path: string): (key: string)
    ensures |key| == |path| + 1 && key[..|path|] == path && key[|path|] == '/'
  {
    path + "/"
  }

  /** Every mount key is non-empty, as the server's mount table keeps them. */
  ghost predicate ValidMounts(s: Store)
  {
    forall k | k in s.mounts :: k != ""
  }

  /** The server's answer for an operation on a path where nothing is mounted. */
  function NoMount(path: string): string
  {
    "no mount at " + path
  }

  function Logged(s: Store, c: Call): Store
  {
    s.(log := s.log + [c])
  }

  function WriteStep(o: Oracle, s: Store, path: string, payload: Payload): Step<Option<map<string, string>>>
  {
    var after := Logged(s, Write(path, payload));
    if |s.log| in o.faults then Step(Err(o.faults[|s.log|]), after)
    else Step(Ok(if path in o.responses then Some(o.responses[path]) else None), after.(secrets := s.secrets[path := payload]))
  }

  /** Answers the key/value data stored at `path`, or nothing. */
  function ReadStep(o: Oracle, s: Store, path: string): Step<Option<map<string, string>>>
  {
    var after := Logged(s, Read(path));
    if |s.log| in o.faults then Step(Err(o.faults[|s.log|]), after)
    else if path in s.secrets && s.secrets[path].Fields? then Step(Ok(Some(s.secrets[path].fields)), after)
    else Step(Ok(None), after)
  }

  function DeleteStep(o: Oracle, s: Store, path: string): Step<()>
  {
    var after := Logged(s, Delete(path));
    if |s.log| in o.faults then Step(Err(o.faults[|s.log|]), after)
    else Step(Ok(()), after.(secrets := s.secrets - {path}))
  }

  function MountStep(o: Oracle, s: Store, path: string, input: MountInput): Step<()>
  {
    var after := Logged(s, Mount(path, input));
    if |s.log| in o.faults then Step(Err(o.faults[|s.log|]), after)
    else
      var entry := MountEntry(input.typ, input.description, input.defaultLeaseTtl, input.maxLeaseTtl);
      Step(Ok(()), after.(mounts := s.mounts[MountKey(path) := entry]))
  }

  function ListMountsStep(o: Oracle, s: Store): Step<map<string, MountEntry>>
  {
    var after := Logged(s, ListMounts);
    if |s.log| in o.faults then Step(Err(o.faults[|s.log|]), after)
    else Step(Ok(s.mounts), after)
  }

  function MountConfigStep(o: Oracle, s: Store, path: string): Step<MountEntry>
  {
    var after := Logged(s, MountConfig(path));
    if |s.log| in o.faults then Step(Err(o.faults[|s.log|]), after)
    else if MountKey(path) in s.mounts then Step(Ok(s.mounts[MountKey(path)]), after)
    else Step(Err(NoMount(path)), after)
  }

  function TuneMountStep(o: Oracle, s: Store, path: string, defaultLeaseTtl: string, maxLeaseTtl: string): Step<()>
  {
    var after := Logged(s, TuneMount(path, defaultLeaseTtl, maxLeaseTtl));
    var key := MountKey(path);
    if |s.log| in o.faults then Step(Err(o.faults[|s.log|]), after)
    else if key in s.mounts then
      var tuned := s.mounts[key].(defaultLeaseTtl := defaultLeaseTtl, maxLeaseTtl := maxLeaseTtl);
      Step(Ok(()), after.(mounts := s.mounts[key := tuned]))
    else Step(Err(NoMount(path)), after)
  }

  function RemountStep(o: Oracle, s: Store, from: string, to: string): Step<()>
  {
    var after := Logged(s, Remount(from, to));
    var key := MountKey(from);
    if |s.log| in o.faults then Step(Err(o.faults[|s.log|]), after)
    else if key in s.mounts then Step(Ok(()), after.(mounts := (s.mounts - {key})[MountKey(to) := s.mounts[key]]))
    else Step(Err(NoMount(from)), after)
  }

  function UnmountStep(o: Oracle, s: Store, path: string): Step<()>
  {
    var after := Logged(s, Unmount(path));
    if |s.log| in o.faults then Step(Err(o.faults[|s.log|]), after)
    else Step(Ok(()), after.(mounts := s.mounts - {MountKey(path)}))
  }

  /** The server's mount table stays free of empty keys whatever is called. */
  lemma StepsKeepValidMounts(o: Oracle, s: Store, path: string, to: string, input: MountInput, d: string, m: string)
    requires ValidMounts(s)
    ensures ValidMounts(MountStep(o, s, path, input).after)
    ensures ValidMounts(TuneMountStep(o, s, path, d, m).after)
    ensures ValidMounts(RemountStep(o, s, path, to).after)
    ensures ValidMounts(UnmountStep(o, s, path).after)
  {
  }

  /** A connection to the Vault server, as the `api.Client` the provider hands out. */
  class Client {
    var secrets: map<string, Payload>
    var mounts: map<string, MountEntry>
    var log: seq<Call>
    const oracle: Oracle

    function State(): Store
      reads this
    {
      Store(secrets, mounts, log)
    }

    constructor (secrets: map<string, Payload>, mounts: map<string, MountEntry>, oracle: Oracle)
      ensures State() == Store(secrets, mounts, []) && this.oracle == oracle
    {
      this.secrets := secrets;
      this.mounts := mounts;
      this.log := [];
      this.oracle := oracle;
    }

    /** `Logical().Write(path, data)`; answers the data of the response, if any. */
    method Write(path: string, payload: Payload) returns (r: Result<Option<map<string, string>>>)
      modifies this
      ensures Step(r, State()) == WriteStep(oracle, old(State()), path, payload)
    {
      var at := |log|;
      log := log + [Call.Write(path, payload)];
      if at in oracle.faults {
        r := Err(oracle.faults[at]);
      } else {
        secrets := secrets[path := payload];
        r := Ok(if path in oracle.responses then Some(oracle.responses[path]) else None);
      }
    }

    /** `Logical().Read(path)`; answers the secret's data, or nothing for a nil secret. */
    method Read(path: string) returns (r: Result<Option<map<string, string>>>)
      modifies this
      ensures Step(r, State()) == ReadStep(oracle, old(State()), path)
    {
      var at := |log|;
      log := log + [Call.Read(path)];
      if at in oracle.faults {
        r := Err(oracle.faults[at]);
      } else if path in secrets && secrets[path].Fields? {
        r := Ok(Some(secrets[path].fields));
      } else {
        r := Ok(None);
      }
    }

    /** `Logical().Delete(path)`. */
    method Delete(path: string) returns (r: Result<()>)
      modifies this
      ensures Step(r, State()) == DeleteStep(oracle, old(State()), path)
    {
      var at := |log|;
      log := log + [Call.Delete(path)];
      if at in oracle.faults {
        r := Err(oracle.faults[at]);
      } else {
        secrets := secrets - {path};
        r := Ok(());
      }
    }

    /** `Sys().Mount(path, input)`. */
    method Mount(path: string, input: MountInput) returns (r: Result<()>)
      modifies this
      ensures Step(r, State()) == MountStep(oracle, old(State()), path, input)
    {
      var at := |log|;
      log := log + [Call.Mount(path, input)];
      if at in oracle.faults {
        r := Err(oracle.faults[at]);
      } else {
        mounts := mounts[MountKey(path) := MountEntry(input.typ, input.description, input.defaultLeaseTtl, input.maxLeaseTtl)];
        r := Ok(());
      }
    }

    /** `Sys().ListMounts()`. */
    method ListMounts() returns (r: Result<map<string, MountEntry>>)
      modifies this
      ensures Step(r, State()) == ListMountsStep(oracle, old(State()))
    {
      var at := |log|;
      log := log + [Call.ListMounts];
      r := if at in oracle.faults then Err(oracle.faults[at]) else Ok(mounts);
    }

    /** `Sys().MountConfig(path)`. */
    method MountConfig(path: string) returns (r: Result<MountEntry>)
      modifies this
      ensures Step(r, State()) == MountConfigStep(oracle, old(State()), path)
    {
      var at := |log|;
      log := log + [Call.MountConfig(path)];
      if at in oracle.faults {
        r := Err(oracle.faults[at]);
      } else if MountKey(path) in mounts {
        r := Ok(mounts[MountKey(path)]);
      } else {
        r := Err(NoMount(path));
      }
    }

    /** `Sys().TuneMount(path, config)`. */
    method TuneMount(path: string, defaultLeaseTtl: string, maxLeaseTtl: string) returns (r: Result<()>)
      modifies this
      ensures Step(r, State()) == TuneMountStep(oracle, old(State()), path, defaultLeaseTtl, maxLeaseTtl)
    {
      var at := |log|;
      log := log + [Call.TuneMount(path, defaultLeaseTtl, maxLeaseTtl)];
      var key := MountKey(path);
      if at in oracle.faults {
        r := Err(oracle.faults[at]);
      } else if key in mounts {
        mounts := mounts[key := mounts[key].(defaultLeaseTtl := defaultLeaseTtl, maxLeaseTtl := maxLeaseTtl)];
        r := Ok(());
      } else {
        r := Err(NoMount(path));
      }
    }

    /** `Sys().Remount(from, to)`. */
    method Remount(from: string, to: string) returns (r: Result<()>)
      modifies this
      ensures Step(r, State()) == RemountStep(oracle, old(State()), from, to)
    {
      var at := |log|;
      log := log + [Call.Remount(from, to)];
      var key := MountKey(from);
      if at in oracle.faults {
        r := Err(oracle.faults[at]);
      } else if key in mounts {
        mounts := (mounts - {key})[MountKey(to) := mounts[key]];
        r := Ok(());
      } else {
        r := Err(NoMount(from));
      }
    }

    /** `Sys().Unmount(path)`. */
    method Unmount(path: string) returns (r: Result<()>)
      modifies this
      ensures Step(r, State()) == UnmountStep(oracle, old(State()), path)
    {
      var at := |log|;
      log := log + [Call.Unmount(path)];
      if at in oracle.faults {
        r := Err(oracle.faults[at]);
      } else {
        mounts := mounts - {MountKey(path)};
        r := Ok(());
      }
    }
  }
}

=== FILE: wrappers.dfy ===
/** Option and Result, the two wrappers every model in this project returns. */
module Wrappers {

  /** A value that may be absent: Go's nil pointer or nil error. */
  datatype Option<T> = None | Some(value: T)

  /** A value or the text of a Go `error`. */
  datatype Result<T> = Ok(value: T) | Err(error: string)
}
